=== FILE: README.md ===
# Papi property helpers in Dafny

Papi is a WordPress plugin that adds typed page, taxonomy and option types on
top of WordPress. Its property helpers in `src/lib/core/property.php` do the
string and array work behind the storage of properties. This project models
the pure part of those helpers and proves properties of the model:

- **Repeater rows.** Papi stores a list of rows in flat post meta. A row
  value `$value[$i][$key]` is stored under the meta key `slug_i_key`, and the
  number of rows is stored under `slug`. This is
  `papi_to_property_array_slugs` (`ArraySlugs.ToArraySlugs`).
  `papi_from_property_array_slugs` (`ArraySlugs.FromArraySlugs`) reads the
  rows back by searching the flat keys for the marker `slug_i_`.
- **Class names.** `papi_get_property_class_name` (`TypeNames.ClassName`)
  maps a property type such as `"post-list"` to `Papi_Property_Post_List`.
- **Type keys.** `papi_get_property_type_key`, `papi_get_property_type_key_f`
  and `papi_is_property_type_key` name the meta key that records a
  property's type and recognise such keys.
- **Box and tab arguments.** `papi_get_options_and_properties`
  (`Options.OptionsAndProperties`) splits its arguments into options and
  properties.

The modules follow the same layering:

- `Decimal` covers decimal digits and PHP's integer-like string keys.
- `Text` covers prefix and suffix tests, substring search, `str_replace`
  with an empty replacement, a PCRE literal anchored by `$`, and `ucfirst`.
- `PhpValues` covers PHP values and ordered arrays. It models `$a[$k] = $v`,
  `$a[] = $v`, `isset` and `empty`. A string subscript that looks like an
  integer becomes an integer key, as in PHP.
- `TypeNames`, `ArraySlugs` and `Options` hold the helpers themselves.

Inputs the model cannot see are parameters:

- `unpapify` (which is not part of this model) is a function parameter of
  the type-key functions.
- `papi_f` is taken to be "put an underscore in front unless one is already
  there" (`TypeNames.PapiF`). Its body is not part of this model, and the
  comment on `papi_get_property_type_key_f` only says the result has an
  underscore as its first character; the "unless" part is an assumption.

The round trip `FromArraySlugs(ToArraySlugs(rows, slug), slug) == rows` is
proved under the following conditions (see `ArraySlugs.RoundTrip`):

- The rows form a list `0 => row, 1 => row, ...`.
- The slug meets `ArraySlugs.SlugOk`. It is non-empty and does not start
  with a digit or `_`. In addition, either no `_` in it is directly followed
  by a digit, or its first character does not occur again in it. So
  `image_2`, `gallery_1` and `row_1_items` qualify. This stops the marker of
  one row from occurring inside another row's keys. The condition is
  sufficient, not necessary: some slugs outside it may round-trip as well.
  A slug starting with a digit can fail. With slug `1`, row 11 writes its
  plain key `1_x` as `1_11_1_x`, which contains row 1's marker `1_1_`, so
  row 1's search picks it up too (`ArraySlugs.DigitSlugLeaks`).
- Row keys are non-empty strings that do not start with `_`. The writer
  treats a leading `_` as the separator, so `_a` comes back as `a`.
- Row keys do not make the flat key a property type key. `papi_f` would
  otherwise add an underscore in front of the flat key, and the key would
  come back with it.
- Row keys contain no row marker of the slug. A key holding another row's
  marker is stored intact, but the search for that row's marker finds it as
  well. A key holding its own row's marker loses that marker when it is read
  back: with slug `s`, row 0's key `s_0_a` is stored as `s_0_s_0_a`, and
  `str_replace` on line 64 strips both copies, leaving `a`
  (`ArraySlugs.OwnMarkerLost`).

## Model

| member | source | states |
|---|---|---|
| ArraySlugs.ToArraySlugs | src/lib/core/property.php:559-593 | the last entry holds the number of array-valued rows under the slug's key; the keys are exactly the flat keys plus the slug's key; no key repeats |
| ArraySlugs.ToArraySlugsWritesOnly | src/lib/core/property.php:562-590 | every stored entry is either the row count or what some non-empty string key of some array-valued row is stored as; non-array rows and integer or empty keys write nothing |
| ArraySlugs.ToArraySlugsWritesAll | src/lib/core/property.php:562-590 | every non-empty string key of every array-valued row gets its flat key in the result |
| ArraySlugs.EncodedKeyForm | src/lib/core/property.php:576-584 | the flat key is `slug_index_key`, with a leading underscore of the key not doubled, possibly with one underscore in front |
| ArraySlugs.EncodedKeyMarked | src/lib/core/property.php:580-584 | the flat key gains an underscore in front exactly when it names a property type key and does not already start with `_` |
| ArraySlugs.CountArrays | src/lib/core/property.php:563-569 | the count is at most the number of rows, and equals it exactly when every row is an array |
| ArraySlugs.RowEntriesMembers | src/lib/core/property.php:571-587 | a row writes an entry exactly when it comes from one of the row's stored keys |
| ArraySlugs.AllEntriesMembers | src/lib/core/property.php:562-588 | the rows write an entry exactly when it comes from a stored key of some array-valued row |
| ArraySlugs.FromArraySlugs | src/lib/core/property.php:51-72 | an empty input gives no rows; otherwise there are as many rows as the loose `$i < $values[$slug]` loop runs, keyed 0, 1, ..., each an array |
| ArraySlugs.StringCountRows | src/lib/core/property.php:58 | a count that comes back from storage as the decimal string of n yields n rows |
| ArraySlugs.ItemEntriesExactly | src/lib/core/property.php:61-66 | the marker search picks exactly the entries whose key contains the marker, with every occurrence of the marker removed from the key |
| ArraySlugs.DecodedProvenance | src/lib/core/property.php:58-68 | every entry of decoded row i comes from an input key containing `slug_i_`, with the marker removed |
| ArraySlugs.DecodedCompleteness | src/lib/core/property.php:58-68 | every input key containing `slug_i_` gives decoded row i a key: the input key with the marker removed |
| ArraySlugs.PlainKeyDecoding | src/lib/core/property.php:61-65 | removing the marker from `slug_i_key` gives the plain key back, and the key is found only by row i's marker |
| ArraySlugs.MarkerOccurrence | src/lib/core/property.php:60-61 | under the slug condition, row n's marker occurs in `slug_j_key` only at the front and only when n = j |
| ArraySlugs.DigitSlugLeaks | src/lib/core/property.php:60-61 | with slug `1`, the flat key `1_11_1_x` of row 11's plain key `1_x` contains row 1's marker `1_1_`, so the search on line 61 also finds it for row 1 |
| ArraySlugs.OwnMarkerLost | src/lib/core/property.php:61-64 | with slug `s`, row 0's key `s_0_a` is stored as `s_0_s_0_a`, only row 0's marker occurs in it, and removing that marker leaves `a` |
| ArraySlugs.RowListItems | src/lib/core/property.php:61-66 | for a slug meeting `SlugOk` and a list of plain rows, searching all stored entries for row i's marker finds exactly row i's keys, in order |
| ArraySlugs.RoundTrip | src/lib/core/property.php:51-72 | reading back what `papi_to_property_array_slugs` stores gives the original list of plain rows |
| TypeNames.ClassName | src/lib/core/property.php:165-176 | null exactly for non-strings and strings PHP's `empty` accepts (`""` and `"0"`); otherwise `Papi_Property_` followed by the type with dashes made underscores, every underscore-separated segment capitalised and a leading `Property` removed; no dash survives and every segment starts upper-case |
| TypeNames.CapitalizeSegmentsFrom | src/lib/core/property.php:171-173 | explode on `_`, `ucfirst` each piece and implode with `_` equals upper-casing the first character and each character after an underscore |
| TypeNames.ImplodeExplode | src/lib/core/property.php:171-173 | imploding the exploded pieces with `_` gives the string back |
| TypeNames.TypeKey | src/lib/core/property.php:244-259 | non-strings and the empty string give `_property`; a string not ending in `]` gives `unpapify(str . '_property')` |
| TypeNames.TypeKeyBrackets | src/lib/core/property.php:253-256 | trailing `]` characters are kept in number: the key of `t]]..]` is the key of `t` followed by the same brackets |
| TypeNames.TypeKeyF | src/lib/core/property.php:268-270 | the type key with exactly one underscore in front: unchanged when it already starts with `_`, otherwise `_` plus the key |
| TypeNames.PapiF | src/lib/core/property.php:262-270 | the result starts with `_`; a key that already starts with `_` is returned unchanged, any other key gets one `_` in front |
| TypeNames.IsPropertyTypeKey | src/lib/core/property.php:279-285 | true exactly when the string ends in `_property`, or in `_property` followed by one final newline, as PCRE's `$` allows |
| TypeNames.TypeKeyRecognized | src/lib/core/property.php:244-285 | given an `unpapify` that keeps a `_property` ending, a type key is recognised as one exactly when the type is empty or does not end in `]` |
| Text.MatchesAtEnd | src/lib/core/property.php:283-284 | `preg_match('/lit$/')` holds exactly when the string ends in `lit` or in `lit` and a newline |
| Text.RemoveAll | src/lib/core/property.php:64 | `str_replace` with an empty replacement never lengthens the string and changes nothing when the pattern does not occur |
| Text.RemoveAllRemoves | src/lib/core/property.php:64 | the string changes exactly when the pattern occurs, and then it loses at least one copy's length |
| Text.RemoveAllWhole | src/lib/core/property.php:64 | the length removed is a whole multiple of the pattern's length |
| Text.RemoveAllAtFirst | src/lib/core/property.php:64 | the leftmost occurrence is deleted, what precedes it is kept, and the scan resumes behind it; with "unchanged when absent" this fixes the result as the left to right deletion of every non-overlapping occurrence |
| Options.OptionsAndProperties | src/lib/core/property.php:94-153 | a `.php` string is a template, any other string is the title; a non-array, non-string gives no options; a box array without properties becomes the properties; its options are the whole array exactly when its own `title` is non-empty in PHP's sense, and otherwise just the title found by the line 100-108 rules; outside a box the options keep only string keys |
| Options.BoxTitle | src/lib/core/property.php:99-108 | the box title is never null and is the first of these that is set: the array's own `title`, `$a[0]->title`, `$a[0]->options['title']`; when none is set it is `""` |
| Options.ArrayMergeRenumbers | src/lib/core/property.php:116 | `array_merge([], $a)` keeps the entries in order, keeps string keys and renumbers integer keys 0, 1, ... |
| Options.MergeIntoRenumbers | src/lib/core/property.php:116 | merging into an array with next free index n, when none of the merged string keys is already there, appends the entries with integer keys renumbered from n |
| Options.RenumberFrom | src/lib/core/property.php:116 | renumbering keeps length, values, kinds of keys and string keys; integer keys are at least the given index and increase strictly |
| Options.RenumberNumbering | src/lib/core/property.php:116 | the integer key of entry i becomes the given index plus the number of integer keys before it, so they run from that index without gaps; string-keyed entries are kept as they are |
| Options.SplitOutsideBox | src/lib/core/property.php:115-126 | outside a box the options are exactly the string-keyed entries, in order and unchanged, and the integer-keyed values are pushed, in order, onto the end of the properties |
| Options.MergeInsideBox | src/lib/core/property.php:115-117 | inside a box with properties given, the options are the renumbered array and the properties are unchanged |
| Options.PartitionCounts | src/lib/core/property.php:120-124 | every entry lands on exactly one side, and the options hold exactly the string-keyed entries |
| Options.PushAllValues | src/lib/core/property.php:122 | the i-th pushed value sits right after the existing properties, under an integer key |
| Options.PushAllList | src/lib/core/property.php:122 | pushing onto a list appends the values under the next indexes `n, n + 1, ...`, so the result is again a list |
| Options.PushAllPrefix | src/lib/core/property.php:122 | pushing keeps the properties that were there, in place |
| Options.PushAllDistinct | src/lib/core/property.php:122 | pushing onto properties without repeated keys adds no repeated key |
| Options.SplitIgnoresNumbering | src/lib/core/property.php:116-124 | renumbering the integer keys changes neither the options nor the values pushed |
| PhpValues.NormalizeKey | src/lib/core/property.php:65 | a string subscript keeps its string form and becomes an integer key exactly when it is integer-like |
| PhpValues.SetLookupSame | src/lib/core/property.php:586 | after `$a[$k] = $v`, `$a[$k]` is `$v` |
| PhpValues.SetLookupOther | src/lib/core/property.php:586 | after `$a[$k] = $v`, every other key reads as before |
| PhpValues.SetEntries | src/lib/core/property.php:586 | `$a[$k] = $v` adds `k` to the keys and stores no entry other than the old ones and `k => v` |
| PhpValues.SetDistinct | src/lib/core/property.php:586 | `$a[$k] = $v` keeps the keys of an array distinct |
| PhpValues.SetAllFresh | src/lib/core/property.php:65 | assigning fresh, distinct keys appends the entries in order |
| PhpValues.Push | src/lib/core/property.php:68 | `$a[] = $v` appends `$v` under a new integer key and keeps what was there |
| PhpValues.PushDistinct | src/lib/core/property.php:68 | appending with `$a[] = $v` to an array without repeated keys leaves it without repeated keys |
| Decimal.NatToString | src/lib/core/property.php:60 | the decimal form of `$i` is canonical and parses back to `$i` |

## Left out

- Reading and writing WordPress meta and options (lines 15-41, 190-224 and 440-548): these are database I/O.
- `papi_is_property`, `papi_get_property_type`, `papi_property`, `papi_populate_properties` and the render helpers: they depend on property classes and templates that are not part of this model.
- The `.php` template branch of `papi_get_options_and_properties` (lines 131-145): `papi_template` reads a file and is not part of this model. The model returns `Template(file)` there.
- `unpapify` is a parameter. The body of `papi_f` is not part of this model. `TypeNames.PapiF` assumes it adds an underscore only when the key does not already start with one.
- `preg_quote` leaves `/` unescaped, so a slug holding `/` breaks the pattern on line 61. The model treats the quoted slug as a literal.
- ArraySlugs.FromArraySlugs: a count stored as a float, an array, an object, or a string that is neither empty nor an integer's decimal form returns `None` instead of modelling PHP's loose comparison for it.
- PhpValues.NextIndex: computed from the integer keys present. PHP's internal next-free counter remembers keys that were unset, and treats negative keys differently before and after PHP 8.3.
- Integers are unbounded. PHP's 64-bit integer range, and integer-like strings beyond it, are not modelled.
- Options.BoxTitle: `options` on element 0 counts only when it is an array. An object implementing `ArrayAccess` there is not modelled.
- Options.SplitOutsideBox: proved for arrays without repeated keys, which every PHP array is. The model's sequences can repeat keys, so the lemma has to ask for it.
- ArraySlugs.RoundTrip: proved only for list-shaped input, slugs meeting `SlugOk` and plain row keys. Three kinds of row key lose information: a key starting with `_` (`k` and `_k` are stored alike); a key that makes the flat key a property type key (`x_property` and `_x_property` are stored alike); and a key holding its own row's marker, which `str_replace` on line 64 strips from it (row 0's `s_0_a` under slug `s` comes back as `a`, as `ArraySlugs.OwnMarkerLost` shows). A key that holds another row's marker is stored intact, but the unanchored search on line 61 also hands it to that other row. `SlugOk` is only a sufficient condition. Slugs outside it are not claimed to fail, except for the digit-first case `DigitSlugLeaks` exhibits.

=== FILE: array_slugs.dfy ===
/**
 Repeatable groups stored as flat meta keys.
 `papi_to_property_array_slugs` turns a list of rows into entries
 `slug_<index>_<key>` plus a row count under `slug`;
 `papi_from_property_array_slugs` rebuilds the rows from such entries.
 Line numbers in the comments below refer to `src/lib/core/property.php`.
 */
module ArraySlugs {
  import opened Decimal
  import opened Text
  import opened PhpValues
  import opened TypeNames

  // ---------------------------------------------------------------------
  // Encoding (papi_to_property_array_slugs)
  // ---------------------------------------------------------------------

  /** Row keys stored under their own meta key: string keys that are not empty (line 572). */
  predicate IsStoredKey(k: Key) {
    k.StrKey? && k.s != ""
  }

  /** Lines 576-578: the key with one underscore in front of it. */
  function Underscored(key: string): (r: string)
    requires key != ""
    ensures r == "_" + (if key[0] == '_' then key[1..] else key)
  {
    if key[0] != '_' then "_" + key else
      assert key == "_" + key[1..];
      key
  }

  /**
   Lines 580-584: the flat key of row key `key` in the row at `index`:
   `slug`, `_`, the index, then the underscored key; `papi_f` is applied
   when that names a property type key.
   */
  function EncodedKey(slug: string, index: Key, key: string): string
    requires key != ""
  {
    var itemSlug := slug + "_" + KeyString(index) + Underscored(key);
    if IsPropertyTypeKey(itemSlug) then PapiF(itemSlug) else itemSlug
  }

  /** The entries written for one row, in the row's order (lines 571-587). */
  function RowEntries(slug: string, index: Key, row: PhpArray): (r: PhpArray)
    ensures |r| <= |row|
  {
    if row == [] then []
    else
      var rest := RowEntries(slug, index, row[1..]);
      if IsStoredKey(row[0].key) then
        [Entry(NormalizeKey(EncodedKey(slug, index, row[0].key.s)), row[0].val)] + rest
      else rest
  }

  /** The entries written for all array-valued elements, in order (lines 563-588). */
  function AllEntries(slug: string, value: PhpArray): PhpArray {
    if value == [] then []
    else if value[0].val.Arr? then
      RowEntries(slug, value[0].key, value[0].val.entries) + AllEntries(slug, value[1..])
    else AllEntries(slug, value[1..])
  }

  /** `count($counter)`: the number of array-valued elements (lines 565-569). */
  function CountArrays(value: PhpArray): (n: nat)
    ensures n <= |value|
    ensures n == |value| <==> forall i | 0 <= i < |value| :: value[i].val.Arr?
  {
    if value == [] then 0
    else
      var rest := CountArrays(value[1..]);
      assert forall i | 1 <= i < |value| :: value[i] == value[1..][i - 1];
      if value[0].val.Arr? then 1 + rest else rest
  }

  /** Every flat key is longer than the slug it starts with. */
  lemma EncodedKeyLonger(slug: string, index: Key, key: string)
    requires key != ""
    ensures |KeyString(NormalizeKey(EncodedKey(slug, index, key)))| > |slug| + 1
  {
  }

  lemma {:induction false} RowEntriesLonger(slug: string, index: Key, row: PhpArray)
    ensures forall e | e in RowEntries(slug, index, row) :: |KeyString(e.key)| > |slug|
  {
    if row != [] {
      RowEntriesLonger(slug, index, row[1..]);
      if IsStoredKey(row[0].key) {
        EncodedKeyLonger(slug, index, row[0].key.s);
      }
    }
  }

  lemma {:induction false} AllEntriesLonger(slug: string, value: PhpArray)
    ensures forall e | e in AllEntries(slug, value) :: |KeyString(e.key)| > |slug|
  {
    if value != [] {
      AllEntriesLonger(slug, value[1..]);
      if value[0].val.Arr? {
        RowEntriesLonger(slug, value[0].key, value[0].val.entries);
      }
    }
  }

  /** Lines 576-580: the flat key before `papi_f`, `slug_index_key` with a leading underscore of the key not doubled. */
  function BaseKey(slug: string, index: Key, key: string): string
    requires key != ""
  {
    slug + "_" + KeyString(index) + "_" + (if key[0] == '_' then key[1..] else key)
  }

  lemma EncodedKeyOfBase(slug: string, index: Key, key: string)
    requires key != ""
    ensures var base := BaseKey(slug, index, key);
      EncodedKey(slug, index, key) == if IsPropertyTypeKey(base) then PapiF(base) else base
  {
    assert slug + "_" + KeyString(index) + Underscored(key) == BaseKey(slug, index, key);
  }

  /** Lines 576-584: the flat key is the base key, or the base key with one underscore in front. */
  lemma EncodedKeyForm(slug: string, index: Key, key: string)
    requires key != ""
    ensures EncodedKey(slug, index, key) == BaseKey(slug, index, key)
         || EncodedKey(slug, index, key) == "_" + BaseKey(slug, index, key)
  {
    EncodedKeyOfBase(slug, index, key);
  }

  /**
   Lines 582-584: the underscore is added exactly when the base key names a
   property type key and does not start with an underscore already.
   */
  lemma EncodedKeyMarked(slug: string, index: Key, key: string)
    requires key != ""
    ensures var base := BaseKey(slug, index, key);
      EncodedKey(slug, index, key) == "_" + base <==> IsPropertyTypeKey(base) && base[0] != '_'
  {
    var base := BaseKey(slug, index, key);
    var r := EncodedKey(slug, index, key);
    EncodedKeyOfBase(slug, index, key);
    assert base != "_" + base by {
      assert |"_" + base| == |base| + 1;
    }
    if IsPropertyTypeKey(base) {
      assert r == PapiF(base);
      assert StartsWith(base, "_") <==> base[0] == '_';
    } else {
      assert r == base;
    }
  }

  /** `e` is what the writer stores for some stored key of `row` at `index`. */
  ghost predicate WrittenFrom(slug: string, index: Key, row: PhpArray, e: Entry) {
    exists f | f in row :: IsStoredKey(f.key) && e == Entry(NormalizeKey(EncodedKey(slug, index, f.key.s)), f.val)
  }

  /** `e` is what the writer stores for some stored key of some array-valued element. */
  ghost predicate WrittenFromList(slug: string, value: PhpArray, e: Entry) {
    exists i | 0 <= i < |value| :: value[i].val.Arr? && WrittenFrom(slug, value[i].key, value[i].val.entries, e)
  }

  /** A row writes one entry per stored key, and nothing else. */
  lemma {:induction false} RowEntriesMembers(slug: string, index: Key, row: PhpArray)
    ensures forall e :: e in RowEntries(slug, index, row) <==> WrittenFrom(slug, index, row, e)
  {
    if row != [] {
      RowEntriesMembers(slug, index, row[1..]);
      assert forall f | f in row[1..] :: f in row;
      assert forall f | f in row :: f == row[0] || f in row[1..];
    }
  }

  /** The whole list writes the entries of its array-valued elements, and nothing else. */
  lemma {:induction false} AllEntriesMembers(slug: string, value: PhpArray)
    ensures forall e :: e in AllEntries(slug, value) <==> WrittenFromList(slug, value, e)
  {
    if value != [] {
      AllEntriesMembers(slug, value[1..]);
      if value[0].val.Arr? {
        RowEntriesMembers(slug, value[0].key, value[0].val.entries);
      }
      forall e
        ensures WrittenFromList(slug, value, e) <==>
          (value[0].val.Arr? && WrittenFrom(slug, value[0].key, value[0].val.entries, e))
          || WrittenFromList(slug, value[1..], e)
      {
        assert forall i | 1 <= i < |value| :: value[1..][i - 1] == value[i];
      }
    }
  }

  /**
   `papi_to_property_array_slugs` writes nothing but the row count and the
   entries of stored keys (string, non-empty, in array-valued elements).
   */
  lemma ToArraySlugsWritesOnly(value: PhpArray, slug: string)
    ensures forall e | e in ToArraySlugs(value, slug) ::
      e == Entry(NormalizeKey(slug), Int(CountArrays(value))) || WrittenFromList(slug, value, e)
  {
    var es := AllEntries(slug, value);
    var items := SetAll([], es);
    var count := Entry(NormalizeKey(slug), Int(CountArrays(value)));
    SetAllShape([], es);
    SetShape(items, count.key, count.val);
    assert ToArraySlugs(value, slug) == Set(items, count.key, count.val);
    AllEntriesMembers(slug, value);
  }

  /** Every stored key of every array-valued element gets its flat key. */
  lemma ToArraySlugsWritesAll(value: PhpArray, slug: string)
    ensures forall i, f | 0 <= i < |value| && value[i].val.Arr? && f in value[i].val.entries && IsStoredKey(f.key) ::
      NormalizeKey(EncodedKey(slug, value[i].key, f.key.s)) in Keys(ToArraySlugs(value, slug))
  {
    var es := AllEntries(slug, value);
    AllEntriesMembers(slug, value);
    forall i, f | 0 <= i < |value| && value[i].val.Arr? && f in value[i].val.entries && IsStoredKey(f.key)
      ensures NormalizeKey(EncodedKey(slug, value[i].key, f.key.s)) in Keys(es)
    {
      var e := Entry(NormalizeKey(EncodedKey(slug, value[i].key, f.key.s)), f.val);
      assert WrittenFrom(slug, value[i].key, value[i].val.entries, e);
      assert WrittenFromList(slug, value, e);
      assert e in es;
    }
  }

  /**
   `papi_to_property_array_slugs`: every stored key of every array-valued
   element, in order, then the number of array-valued elements under `slug`.
   */
  function ToArraySlugs(value: PhpArray, slug: string): (r: PhpArray)
    ensures |r| > 0 && r[|r| - 1] == Entry(NormalizeKey(slug), Int(CountArrays(value)))
    ensures Lookup(r, NormalizeKey(slug)) == Some(Int(CountArrays(value)))
    ensures Keys(r) == Keys(AllEntries(slug, value)) + {NormalizeKey(slug)}
    ensures DistinctKeys(r)
  {
    var items := SetAll([], AllEntries(slug, value));
    SetAllShape([], AllEntries(slug, value));
    AllEntriesLonger(slug, value);
    assert NormalizeKey(slug) !in Keys(items);
    SetShape(items, NormalizeKey(slug), Int(CountArrays(value)));
    Set(items, NormalizeKey(slug), Int(CountArrays(value)))
  }

  // ---------------------------------------------------------------------
  // Decoding (papi_from_property_array_slugs)
  // ---------------------------------------------------------------------

  /** Line 60: `$slug . '_' . $i . '_'`, the marker of row `i`'s keys. */
  function ItemSlug(slug: string, i: nat): string {
    slug + "_" + NatToString(i) + "_"
  }

  /**
   Lines 61-66 without the final assignments: every entry whose key contains
   the marker, with every occurrence of the marker removed from the key.
   */
  function ItemEntries(values: PhpArray, marker: string): PhpArray
    requires |marker| > 0
  {
    if values == [] then []
    else
      var rest := ItemEntries(values[1..], marker);
      if Contains(KeyString(values[0].key), marker) then [Unmarked(values[0], marker)] + rest else rest
  }

  /** Line 64: the entry under its key with every occurrence of the marker removed. */
  function Unmarked(e: Entry, marker: string): Entry
    requires |marker| > 0
  {
    Entry(NormalizeKey(RemoveAll(KeyString(e.key), marker)), e.val)
  }

  /** `x` is what the marker search makes of some entry of `values` whose key contains `marker`. */
  ghost predicate FoundIn(values: PhpArray, marker: string, x: Entry)
    requires |marker| > 0
  {
    exists e | e in values :: Contains(KeyString(e.key), marker) && x == Unmarked(e, marker)
  }

  /** What the marker search keeps: an entry is picked exactly when its key contains the marker. */
  lemma {:induction false} ItemEntriesExactly(values: PhpArray, marker: string)
    requires |marker| > 0
    ensures forall x | x in ItemEntries(values, marker) :: FoundIn(values, marker, x)
    ensures forall e | e in values && Contains(KeyString(e.key), marker) ::
      Unmarked(e, marker) in ItemEntries(values, marker)
  {
    ItemEntriesFound(values, marker);
    ItemEntriesAll(values, marker);
  }

  lemma {:induction false} ItemEntriesFound(values: PhpArray, marker: string)
    requires |marker| > 0
    ensures forall x | x in ItemEntries(values, marker) :: FoundIn(values, marker, x)
    decreases |values|
  {
    if values != [] {
      var rest := ItemEntries(values[1..], marker);
      ItemEntriesFound(values[1..], marker);
      forall x | x in ItemEntries(values, marker)
        ensures FoundIn(values, marker, x)
      {
        if x in rest {
          var e :| e in values[1..] && Contains(KeyString(e.key), marker) && x == Unmarked(e, marker);
          assert e in values;
        } else {
          assert values[0] in values;
        }
      }
    }
  }

  lemma {:induction false} ItemEntriesAll(values: PhpArray, marker: string)
    requires |marker| > 0
    ensures forall e | e in values && Contains(KeyString(e.key), marker) ::
      Unmarked(e, marker) in ItemEntries(values, marker)
    decreases |values|
  {
    if values != [] {
      var rest := ItemEntries(values[1..], marker);
      ItemEntriesAll(values[1..], marker);
      forall e | e in values && Contains(KeyString(e.key), marker)
        ensures Unmarked(e, marker) in ItemEntries(values, marker)
      {
        if e != values[0] {
          assert e in values[1..];
          assert Unmarked(e, marker) in rest;
        }
      }
    }
  }

  /** Lines 59-68: row `i` assembled by assigning the matching entries in order. */
  function DecodeRow(values: PhpArray, slug: string, i: nat): PhpArray {
    SetAll([], ItemEntries(values, ItemSlug(slug, i)))
  }

  /**
   The number of rounds of `for ($i = 0; $i < $values[$slug]; $i++)` under
   PHP's loose comparison: a missing entry reads as null, and a string in an
   integer's decimal form (what meta storage hands back) compares as that
   integer; `0 < ""` is false. Other strings, arrays and objects are not
   interpreted here (an array or object never stops the loop).
   */
  function RowBound(count: Option<Value>): Option<nat> {
    match count
    case None => Some(0)
    case Some(Null) => Some(0)
    case Some(Bool(b)) => Some(if b then 1 else 0)
    case Some(Int(n)) => Some(if n > 0 then n else 0)
    case Some(Str(t)) =>
      if t == "" then Some(0)
      else if IsIntegerKey(t) then Some(if ParseInt(t) > 0 then ParseInt(t) else 0)
      else None
    case Some(_) => None
  }

  /** A count read back from meta storage as the decimal string of `n` gives `n` rows. */
  lemma StringCountRows(values: PhpArray, slug: string, n: nat)
    requires values != [] && Lookup(values, NormalizeKey(slug)) == Some(Str(NatToString(n)))
    ensures FromArraySlugs(values, slug).Some?
    ensures |FromArraySlugs(values, slug).value| == n
  {
    assert IsIntegerKey(NatToString(n)) && ParseInt(NatToString(n)) == n by {
      assert IntToString(n) == NatToString(n);
    }
  }

  /**
   `papi_from_property_array_slugs`: no rows for an empty input; otherwise as
   many rows as the count under `slug` says, row `i` built from the keys that
   contain `slug_i_`. `None` stands for a count this model does not interpret.
   */
  function FromArraySlugs(values: PhpArray, slug: string): (r: Option<PhpArray>)
    ensures values == [] ==> r == Some([])
    ensures values != [] ==> r.Some? == RowBound(Lookup(values, NormalizeKey(slug))).Some?
    ensures values != [] && r.Some? ==> |r.value| == RowBound(Lookup(values, NormalizeKey(slug))).value
    ensures r.Some? ==> forall i | 0 <= i < |r.value| ::
      r.value[i].key == IntKey(i) && r.value[i].val.Arr?
  {
    if values == [] then Some([])
    else
      match RowBound(Lookup(values, NormalizeKey(slug)))
      case None => None
      case Some(n) =>
        Some(seq(n, i requires 0 <= i < n => Entry(IntKey(i), Arr(DecodeRow(values, slug, i)))))
  }

  /** What the decoder returns once it has read a count of `n` rows. */
  lemma DecodedRows(values: PhpArray, slug: string, n: nat)
    requires values != [] && RowBound(Lookup(values, NormalizeKey(slug))) == Some(n)
    ensures FromArraySlugs(values, slug).Some?
    ensures |FromArraySlugs(values, slug).value| == n
    ensures forall i | 0 <= i < n ::
      FromArraySlugs(values, slug).value[i] == Entry(IntKey(i), Arr(DecodeRow(values, slug, i)))
  {
  }

  /**
   Every entry of a decoded row `i` comes from an input entry whose key
   contains the marker `slug_i_`, with the marker removed from the key.
   */
  lemma DecodedProvenance(values: PhpArray, slug: string)
    ensures var r := FromArraySlugs(values, slug);
      r.Some? ==> forall i: nat, x | i < |r.value| && x in r.value[i].val.entries ::
        FoundIn(values, ItemSlug(slug, i), x)
  {
    var r := FromArraySlugs(values, slug);
    if r.Some? && values != [] {
      var n := |r.value|;
      DecodedRows(values, slug, n);
      forall i: nat, x | i < n && x in r.value[i].val.entries
        ensures FoundIn(values, ItemSlug(slug, i), x)
      {
        SetAllShape([], ItemEntries(values, ItemSlug(slug, i)));
        ItemEntriesExactly(values, ItemSlug(slug, i));
      }
    }
  }

  /**
   Every input entry whose key contains the marker `slug_i_` gives row `i` a
   key: its own key with the marker removed.
   */
  lemma DecodedCompleteness(values: PhpArray, slug: string)
    ensures var r := FromArraySlugs(values, slug);
      r.Some? ==> forall i: nat, e | i < |r.value| && e in values && Contains(KeyString(e.key), ItemSlug(slug, i)) ::
        Unmarked(e, ItemSlug(slug, i)).key in Keys(r.value[i].val.entries)
  {
    var r := FromArraySlugs(values, slug);
    if r.Some? && values != [] {
      var n := |r.value|;
      DecodedRows(values, slug, n);
      forall i: nat, e | i < n && e in values && Contains(KeyString(e.key), ItemSlug(slug, i))
        ensures Unmarked(e, ItemSlug(slug, i)).key in Keys(r.value[i].val.entries)
      {
        var found := ItemEntries(values, ItemSlug(slug, i));
        SetAllShape([], found);
        ItemEntriesExactly(values, ItemSlug(slug, i));
        assert Unmarked(e, ItemSlug(slug, i)) in found;
      }
    }
  }

  // ---------------------------------------------------------------------
  // Round trip
  // ---------------------------------------------------------------------

  /**
   Slugs for which a row marker `slug_i_` can only be found where it was
   put: not empty, not starting with a digit or an underscore, and either
   with no underscore directly followed by a digit or with a first
   character that does not occur again in the slug (so `image_2` and
   `row_1_items` qualify). This is a sufficient condition, not a
   characterisation of every slug the round trip holds for.
   */
  predicate SlugOk(slug: string) {
    && |slug| > 0
    && !IsDigit(slug[0])
    && slug[0] != '_'
    && (|| (forall i | 0 <= i < |slug| - 1 :: slug[i] == '_' ==> !IsDigit(slug[i + 1]))
        || (forall i | 0 < i < |slug| :: slug[i] != slug[0]))
  }

  /** Everyday slugs with an underscore before a digit still qualify. */
  lemma SlugOkExamples()
    ensures SlugOk("image_2") && SlugOk("gallery_1") && SlugOk("row_1_items")
    ensures !SlugOk("1") && !SlugOk("_a") && !SlugOk("")
  {
  }

  /**
   Why a slug may not start with a digit: with slug `1`, row 11 stores its
   plain key `1_x` under `1_11_1_x`, which contains row 1's marker `1_1_`,
   so row 1's search picks that entry up as well.
   */
  lemma DigitSlugLeaks()
    ensures ItemSlug("1", 11) + "1_x" == "1_11_1_x"
    ensures PlainKey("1", StrKey("1_x"))
    ensures Contains(ItemSlug("1", 11) + "1_x", ItemSlug("1", 1))
    ensures EncodedKey("1", IntKey(11), "1_x") == "1_11_1_x"
    ensures ItemEntries([Entry(StrKey("1_11_1_x"), Null)], ItemSlug("1", 1)) != []
  {
    assert NatToString(1) == "1";
    assert NatToString(11) == NatToString(1) + [DigitChar(1)] == "11";
    var w := ItemSlug("1", 11) + "1_x";
    assert w == "1_11_1_x";
    assert ValidKey(StrKey("1_x")) by {
      UnderscoreKeepsString("1_x", 1);
    }
    assert ItemSlug("1", 1) == "1_1_";
    assert w[3..7] == "1_1_";
    ContainsAt(w, ItemSlug("1", 1), 3);
    forall n: nat
      ensures !Contains("1_x", ItemSlug("1", n))
    {
      assert |ItemSlug("1", n)| >= 4;
      ShorterContainsNothing("1_x", ItemSlug("1", n));
    }
    assert !IsPropertyTypeKey("_1_x");
    PlainKeyEncoding("1", 11, "1_x");
    ItemEntriesAll([Entry(StrKey("1_11_1_x"), Null)], ItemSlug("1", 1));
  }

  /**
   Why a row key may not hold its own row's marker: with slug `s`, row 0's key
   `s_0_a` is stored as `s_0_s_0_a`. Only row 0's marker occurs there, but
   `str_replace` on line 64 strips both copies, so the key comes back as `a`.
   */
  lemma OwnMarkerLost()
    ensures EncodedKey("s", IntKey(0), "s_0_a") == "s_0_s_0_a"
    ensures forall n: nat :: Contains("s_0_s_0_a", ItemSlug("s", n)) <==> n == 0
    ensures RemoveAll("s_0_s_0_a", ItemSlug("s", 0)) == "a"
  {
    OwnMarkerStored();
    forall n: nat
      ensures Contains("s_0_s_0_a", ItemSlug("s", n)) <==> n == 0
    {
      OwnMarkerOnly(n);
    }
    OwnMarkerStripped();
  }

  /** Lines 576-584 write row 0's key `s_0_a` under slug `s` as `s_0_s_0_a`. */
  lemma OwnMarkerStored()
    ensures EncodedKey("s", IntKey(0), "s_0_a") == "s_0_s_0_a"
  {
    var w := "s_0_s_0_a";
    assert KeyString(IntKey(0)) == "0" by {
      assert NatToString(0) == "0";
    }
    assert "s" + "_" + "0" + Underscored("s_0_a") == w;
    assert w[0] != TypeSuffix[0] && w != TypeSuffix;
    assert !IsPropertyTypeKey(w);
  }

  /** Of all row markers of slug `s`, only row 0's occurs in `s_0_s_0_a`. */
  lemma OwnMarkerOnly(n: nat)
    ensures Contains("s_0_s_0_a", ItemSlug("s", n)) <==> n == 0
  {
    var w := "s_0_s_0_a";
    var m := ItemSlug("s", n);
    var d := NatToString(n);
    if Contains(w, m) {
      var p :| 0 <= p <= |w| && OccursAt(w, m, p);
      assert m[0] == 's' && m[2] == d[0];
      OccursAtChar(w, m, p, 0);
      OccursAtChar(w, m, p, 2);
      assert d == "0";
    }
    if n == 0 {
      assert d == "0";
      assert w[..4] == m;
      ContainsAt(w, m, 0);
    }
  }

  /** Line 64 strips both copies of `s_0_` from `s_0_s_0_a`. */
  lemma OwnMarkerStripped()
    ensures RemoveAll("s_0_s_0_a", ItemSlug("s", 0)) == "a"
  {
    var m := ItemSlug("s", 0);
    assert NatToString(0) == "0";
    assert m == "s_0_";
    assert "s_0_s_0_a" == m + (m + "a");
    RemoveAllLeading(m, m + "a");
    RemoveAllLeading(m, "a");
  }

  /** No row marker of `slug`, for any row number, occurs in `k`. */
  ghost predicate NoMarkers(slug: string, k: string) {
    forall n: nat :: !Contains(k, ItemSlug(slug, n))
  }

  /**
   Row keys that come back unchanged: non-empty string keys that do not start
   with an underscore (it would be dropped), do not name a property type key
   (`papi_f` would add one), and contain no row marker of this slug.
   */
  ghost predicate PlainKey(slug: string, k: Key) {
    && k.StrKey?
    && ValidKey(k)
    && k.s != ""
    && k.s[0] != '_'
    && !IsPropertyTypeKey("_" + k.s)
    && NoMarkers(slug, k.s)
  }

  ghost predicate PlainRow(slug: string, row: PhpArray) {
    DistinctKeys(row) && forall f | f in row :: PlainKey(slug, f.key)
  }

  /** A list `[start => row, start + 1 => row, ...]` of plain rows. */
  ghost predicate RowListFrom(slug: string, value: PhpArray, start: nat) {
    forall i | 0 <= i < |value| ::
      value[i].key == IntKey(start + i) && value[i].val.Arr? && PlainRow(slug, value[i].val.entries)
  }

  lemma PlainRowTail(slug: string, row: PhpArray)
    requires PlainRow(slug, row) && row != []
    ensures PlainRow(slug, row[1..]) && row[0].key !in Keys(row[1..])
  {
    DistinctTail(row);
    assert forall g | g in row[1..] :: g in row;
  }

  lemma RowListTail(slug: string, value: PhpArray, start: nat)
    requires RowListFrom(slug, value, start) && value != []
    ensures RowListFrom(slug, value[1..], start + 1)
  {
    forall i | 0 <= i < |value[1..]|
      ensures value[1..][i] == value[i + 1]
    {
    }
  }

  /** A `_property` ending seen through `x_k` is already an ending of `_k`. */
  lemma TypeSuffixThroughUnderscore(x: string, k: string, t: string)
    requires |t| > 0 && t[0] == '_' && forall i | 1 <= i < |t| :: t[i] != '_'
    ensures EndsWith(x + "_" + k, t) ==> EndsWith("_" + k, t)
  {
    var u := "_" + k;
    var w := x + u;
    assert x + "_" + k == w;
    assert w[|x|] == '_';
    if EndsWith(w, t) && |t| > |u| {
      SuffixChar(w, t, |x|);
      assert false;
    }
    if EndsWith(w, t) {
      SuffixOfTail(x, u, t);
    }
  }

  /** A plain key is stored as the row marker followed by the key itself. */
  lemma PlainKeyEncoding(slug: string, j: nat, k: string)
    requires PlainKey(slug, StrKey(k))
    ensures EncodedKey(slug, IntKey(j), k) == ItemSlug(slug, j) + k
    ensures NormalizeKey(ItemSlug(slug, j) + k) == StrKey(ItemSlug(slug, j) + k)
  {
    var x := slug + "_" + NatToString(j);
    var w := x + "_" + k;
    assert Underscored(k) == "_" + k;
    assert slug + "_" + KeyString(IntKey(j)) + Underscored(k) == w;
    assert w == ItemSlug(slug, j) + k;
    TypeSuffixThroughUnderscore(x, k, TypeSuffix);
    TypeSuffixThroughUnderscore(x, k, TypeSuffix + "\n");
    assert !IsPropertyTypeKey(w);
    assert w[|slug|] == '_';
    UnderscoreKeepsString(w, |slug|);
  }

  /** Two digit strings each followed by `_`, one a prefix of the other: they are equal. */
  lemma DigitBlocks(dn: string, dj: string, k: string)
    requires AllDigits(dn) && AllDigits(dj)
    requires StartsWith(dj + "_" + k, dn + "_")
    ensures dn == dj
  {
    var w := dj + "_" + k;
    var p := dn + "_";
    assert forall i | 0 <= i < |p| :: w[i] == p[i];
    assert forall i | 0 <= i < |dj| :: w[i] == dj[i];
    assert w[|dj|] == '_';
    assert forall i | 0 <= i < |dn| :: p[i] == dn[i];
    assert p[|dn|] == '_';
    assert |dn| == |dj|;
    assert forall i | 0 <= i < |dn| :: dn[i] == p[i] == w[i] == dj[i];
  }

  /** The characters of a row marker, position by position. */
  lemma ItemSlugChars(slug: string, j: nat)
    ensures var m := ItemSlug(slug, j); var d := NatToString(j);
      && |m| == |slug| + |d| + 2
      && (forall i | 0 <= i < |slug| :: m[i] == slug[i])
      && m[|slug|] == '_'
      && IsDigit(m[|slug| + 1])
      && (forall q | |slug| < q < |m| :: IsDigit(m[q]) || m[q] == '_')
  {
    var m := ItemSlug(slug, j);
    var d := NatToString(j);
    assert m == slug + "_" + d + "_";
    forall q | |slug| < q < |m|
      ensures IsDigit(m[q]) || m[q] == '_'
    {
      if q < |m| - 1 {
        assert m[q] == d[q - |slug| - 1];
      }
    }
    assert m[|slug| + 1] == d[0];
  }

  /** A marker cannot start inside the key that follows the row marker. */
  lemma MarkerNotInKey(slug: string, j: nat, n: nat, k: string, p: int)
    requires NoMarkers(slug, k)
    requires OccursAt(ItemSlug(slug, j) + k, ItemSlug(slug, n), p)
    ensures p < |ItemSlug(slug, j)|
  {
    var mj := ItemSlug(slug, j);
    var mn := ItemSlug(slug, n);
    if p >= |mj| {
      OccursAfterPrefix(mj, k, mn, p);
      ContainsAt(k, mn, p - |mj|);
      assert false;
    }
  }

  /** A marker cannot start among the row number's digits or the `_` behind them. */
  lemma MarkerNotInDigits(slug: string, j: nat, n: nat, k: string, p: int)
    requires SlugOk(slug)
    requires OccursAt(ItemSlug(slug, j) + k, ItemSlug(slug, n), p)
    requires p < |ItemSlug(slug, j)|
    ensures p <= |slug|
  {
    var mj := ItemSlug(slug, j);
    var mn := ItemSlug(slug, n);
    var w := mj + k;
    ItemSlugChars(slug, j);
    ItemSlugChars(slug, n);
    OccursAtChar(w, mn, p, 0);
    assert w[p] == mj[p];
    assert mn[0] == slug[0];
  }

  /** A marker cannot start inside the slug, past its first character. */
  lemma MarkerNotInSlug(slug: string, j: nat, n: nat, k: string, p: int)
    requires SlugOk(slug)
    requires OccursAt(ItemSlug(slug, j) + k, ItemSlug(slug, n), p)
    requires p <= |slug|
    ensures p == 0
  {
    var ls := |slug|;
    var mj := ItemSlug(slug, j);
    var mn := ItemSlug(slug, n);
    var w := mj + k;
    ItemSlugChars(slug, j);
    ItemSlugChars(slug, n);
    OccursAtChar(w, mn, p, 0);
    assert w[p] == mj[p];
    assert w[ls] == mj[ls] == '_';
    if !forall i | 0 < i < ls :: slug[i] != slug[0] {
      var t := ls - p;
      OccursAtChar(w, mn, p, t);
      OccursAtChar(w, mn, p, t + 1);
      assert w[ls + 1] == mj[ls + 1];
      assert mn[t] == '_' && IsDigit(mn[t + 1]);
      assert mn[ls] == '_';
    }
  }

  /** A marker at the very front is the row's own marker. */
  lemma MarkerAtFront(slug: string, j: nat, n: nat, k: string)
    requires OccursAt(ItemSlug(slug, j) + k, ItemSlug(slug, n), 0)
    ensures n == j
  {
    var dn := NatToString(n);
    var dj := NatToString(j);
    var mn := ItemSlug(slug, n);
    var w := ItemSlug(slug, j) + k;
    var ls := |slug|;
    assert mn == (slug + "_") + (dn + "_");
    assert w == (slug + "_") + (dj + "_" + k);
    assert w[..|mn|] == mn;
    assert (dj + "_" + k)[..|dn + "_"|] == w[ls + 1..|mn|] == mn[ls + 1..] == dn + "_";
    DigitBlocks(dn, dj, k);
    NatToStringInjective(n, j);
  }

  /**
   The row marker of `n` occurs in `slug_j_key` only at the front, and only
   when `n == j`.
   */
  lemma MarkerOccurrence(slug: string, j: nat, n: nat, k: string, p: int)
    requires SlugOk(slug) && NoMarkers(slug, k)
    ensures OccursAt(ItemSlug(slug, j) + k, ItemSlug(slug, n), p) ==> p == 0 && n == j
  {
    if OccursAt(ItemSlug(slug, j) + k, ItemSlug(slug, n), p) {
      MarkerNotInKey(slug, j, n, k, p);
      MarkerNotInDigits(slug, j, n, k, p);
      MarkerNotInSlug(slug, j, n, k, p);
      MarkerAtFront(slug, j, n, k);
    }
  }

  /** A stored plain key contains exactly one row marker, and removing it gives the key. */
  lemma PlainKeyDecoding(slug: string, j: nat, k: string)
    requires SlugOk(slug) && PlainKey(slug, StrKey(k))
    ensures forall n: nat :: Contains(ItemSlug(slug, j) + k, ItemSlug(slug, n)) <==> n == j
    ensures RemoveAll(ItemSlug(slug, j) + k, ItemSlug(slug, j)) == k
  {
    var mj := ItemSlug(slug, j);
    forall n: nat
      ensures Contains(mj + k, ItemSlug(slug, n)) <==> n == j
    {
      if n == j {
        assert (mj + k)[..|mj|] == mj;
        assert OccursAt(mj + k, mj, 0);
      } else {
        forall p | 0 <= p <= |mj + k|
          ensures !OccursAt(mj + k, ItemSlug(slug, n), p)
        {
          MarkerOccurrence(slug, j, n, k, p);
        }
      }
    }
    RemoveAllLeading(mj, k);
  }

  lemma {:induction false} ItemEntriesAppend(a: PhpArray, b: PhpArray, marker: string)
    requires |marker| > 0
    ensures ItemEntries(a + b, marker) == ItemEntries(a, marker) + ItemEntries(b, marker)
    decreases |a|
  {
    if a == [] {
      assert a + b == b;
    } else {
      assert (a + b)[0] == a[0];
      assert (a + b)[1..] == a[1..] + b;
      ItemEntriesAppend(a[1..], b, marker);
    }
  }

  /** The entries `marker . key => value` for the entries of `row`, in order. */
  function Tagged(marker: string, row: PhpArray): PhpArray {
    seq(|row|, i requires 0 <= i < |row| => Entry(StrKey(marker + KeyString(row[i].key)), row[i].val))
  }

  lemma TaggedCons(marker: string, row: PhpArray)
    requires row != []
    ensures Tagged(marker, row)
      == [Entry(StrKey(marker + KeyString(row[0].key)), row[0].val)] + Tagged(marker, row[1..])
  {
    assert forall i | 1 <= i < |row| :: row[1..][i - 1] == row[i];
  }

  /** A plain row is stored as its entries, each key behind the row marker. */
  lemma {:induction false} PlainRowStored(slug: string, j: nat, row: PhpArray)
    requires PlainRow(slug, row)
    ensures RowEntries(slug, IntKey(j), row) == Tagged(ItemSlug(slug, j), row)
  {
    if row != [] {
      PlainRowTail(slug, row);
      PlainRowStored(slug, j, row[1..]);
      PlainKeyEncoding(slug, j, row[0].key.s);
      TaggedCons(ItemSlug(slug, j), row);
    }
  }

  /** Distinct string keys stay distinct behind a common marker. */
  lemma TaggedDistinct(marker: string, row: PhpArray)
    requires DistinctKeys(row) && forall f | f in row :: f.key.StrKey?
    ensures DistinctKeys(Tagged(marker, row))
  {
    var t := Tagged(marker, row);
    forall i, j | 0 <= i < j < |t|
      ensures t[i].key != t[j].key
    {
      var a := KeyString(row[i].key);
      var b := KeyString(row[j].key);
      assert row[i] in row && row[j] in row;
      assert (marker + a)[|marker|..] == a && (marker + b)[|marker|..] == b;
    }
  }

  /** Every stored key of a plain row contains its own row marker and no other. */
  lemma TaggedMarkers(slug: string, j: nat, row: PhpArray)
    requires SlugOk(slug) && PlainRow(slug, row)
    ensures forall x, n: nat | x in Tagged(ItemSlug(slug, j), row) ::
      Contains(KeyString(x.key), ItemSlug(slug, n)) <==> n == j
  {
    var t := Tagged(ItemSlug(slug, j), row);
    forall x, n: nat | x in t
      ensures Contains(KeyString(x.key), ItemSlug(slug, n)) <==> n == j
    {
      var i :| 0 <= i < |t| && t[i] == x;
      assert row[i] in row;
      PlainKeyDecoding(slug, j, row[i].key.s);
    }
  }

  /** Read back through row marker `i`, a stored plain row gives itself for `i == j`, else nothing. */
  lemma {:induction false} TaggedItems(slug: string, j: nat, row: PhpArray, i: nat)
    requires SlugOk(slug) && PlainRow(slug, row)
    ensures ItemEntries(Tagged(ItemSlug(slug, j), row), ItemSlug(slug, i)) == if i == j then row else []
  {
    if row != [] {
      var m := ItemSlug(slug, j);
      var f := row[0];
      var h := Entry(StrKey(m + f.key.s), f.val);
      var rest := Tagged(m, row[1..]);
      var mi := ItemSlug(slug, i);
      TaggedCons(m, row);
      PlainRowTail(slug, row);
      TaggedItems(slug, j, row[1..], i);
      assert row[0] in row;
      TaggedHeadItems(slug, j, f, i);
      ItemEntriesAppend([h], rest, mi);
      var found := ItemEntries(Tagged(m, row), mi);
      assert found == ItemEntries([h], mi) + ItemEntries(rest, mi);
      if i == j {
        assert found == [f] + row[1..];
        assert [f] + row[1..] == row;
      } else {
        assert found == [] + [];
      }
    }
  }

  /** One stored plain entry is found by its own row's marker only, and decodes to itself. */
  lemma TaggedHeadItems(slug: string, j: nat, f: Entry, i: nat)
    requires SlugOk(slug) && PlainKey(slug, f.key)
    ensures var h := Entry(StrKey(ItemSlug(slug, j) + f.key.s), f.val);
      ItemEntries([h], ItemSlug(slug, i)) == if i == j then [f] else []
  {
    var m := ItemSlug(slug, j);
    var h := Entry(StrKey(m + f.key.s), f.val);
    var mi := ItemSlug(slug, i);
    PlainKeyDecoding(slug, j, f.key.s);
    assert [h][1..] == [];
    if i == j {
      NormalizeKeyString(f.key);
      assert Unmarked(h, m) == f;
    } else {
      assert !Contains(m + f.key.s, mi);
    }
  }

  /** Every stored key of a list of plain rows contains only markers from `start` on. */
  lemma {:induction false} RowListMarkers(slug: string, value: PhpArray, start: nat)
    requires SlugOk(slug) && RowListFrom(slug, value, start)
    ensures forall x, n: nat | x in AllEntries(slug, value) && Contains(KeyString(x.key), ItemSlug(slug, n)) ::
      start <= n
    decreases |value|
  {
    if value != [] {
      var row := value[0].val.entries;
      RowListTail(slug, value, start);
      RowListMarkers(slug, value[1..], start + 1);
      PlainRowStored(slug, start, row);
      TaggedMarkers(slug, start, row);
      var head := RowEntries(slug, IntKey(start), row);
      var rest := AllEntries(slug, value[1..]);
      assert AllEntries(slug, value) == head + rest;
    }
  }

  /** The stored keys of a list of plain rows are distinct. */
  lemma {:induction false} RowListDistinct(slug: string, value: PhpArray, start: nat)
    requires SlugOk(slug) && RowListFrom(slug, value, start)
    ensures DistinctKeys(AllEntries(slug, value))
    decreases |value|
  {
    if value != [] {
      var row := value[0].val.entries;
      RowListTail(slug, value, start);
      RowListDistinct(slug, value[1..], start + 1);
      RowListMarkers(slug, value[1..], start + 1);
      PlainRowStored(slug, start, row);
      TaggedMarkers(slug, start, row);
      TaggedDistinct(ItemSlug(slug, start), row);
      var head := RowEntries(slug, IntKey(start), row);
      var rest := AllEntries(slug, value[1..]);
      forall x, y | x in head && y in rest
        ensures x.key != y.key
      {
        assert Contains(KeyString(x.key), ItemSlug(slug, start));
      }
      DistinctKeysAppend(head, rest);
      assert AllEntries(slug, value) == head + rest;
    }
  }

  /** Row `i` of a list whose rows are numbered from `start`, or nothing. */
  function RowAt(value: PhpArray, start: nat, i: nat): PhpArray {
    if start <= i < start + |value| && value[i - start].val.Arr? then value[i - start].val.entries else []
  }

  /** Read back through row marker `i`, a stored list of plain rows gives row `i`. */
  lemma {:induction false} RowListItems(slug: string, value: PhpArray, start: nat, i: nat)
    requires SlugOk(slug) && RowListFrom(slug, value, start)
    ensures ItemEntries(AllEntries(slug, value), ItemSlug(slug, i)) == RowAt(value, start, i)
    decreases |value|
  {
    if value != [] {
      var row := value[0].val.entries;
      var m := ItemSlug(slug, i);
      assert value[0].key == IntKey(start) && value[0].val.Arr? && PlainRow(slug, row);
      RowListTail(slug, value, start);
      RowListItems(slug, value[1..], start + 1, i);
      PlainRowStored(slug, start, row);
      var head := RowEntries(slug, IntKey(start), row);
      var rest := AllEntries(slug, value[1..]);
      assert AllEntries(slug, value) == head + rest;
      ItemEntriesAppend(head, rest, m);
      TaggedItems(slug, start, row, i);
      assert ItemEntries(AllEntries(slug, value), m) == ItemEntries(head, m) + RowAt(value[1..], start + 1, i);
      if i == start {
        assert ItemEntries(head, m) == row == RowAt(value, start, i);
        assert RowAt(value[1..], start + 1, i) == [];
      } else {
        assert ItemEntries(head, m) == [];
        if start < i < start + |value| {
          assert value[1..][i - (start + 1)] == value[i - start];
        }
        assert RowAt(value, start, i) == RowAt(value[1..], start + 1, i);
      }
    }
  }

  /** A list of plain rows is stored as its row entries followed by the row count. */
  lemma StoredShape(value: PhpArray, slug: string)
    requires SlugOk(slug) && RowListFrom(slug, value, 0)
    ensures ToArraySlugs(value, slug)
      == AllEntries(slug, value) + [Entry(NormalizeKey(slug), Int(|value|))]
  {
    var es := AllEntries(slug, value);
    RowListDistinct(slug, value, 0);
    assert [] + es == es;
    SetAllFresh([], es);
    AllEntriesLonger(slug, value);
    assert NormalizeKey(slug) !in Keys(es);
    assert CountArrays(value) == |value|;
  }

  /** The row count entry holds no row marker. */
  lemma CountUnmarked(slug: string, n: nat, count: Value)
    ensures ItemEntries([Entry(NormalizeKey(slug), count)], ItemSlug(slug, n)) == []
  {
    ShorterContainsNothing(slug, ItemSlug(slug, n));
  }

  /** Row `i` of a stored list of plain rows is read back unchanged. */
  lemma RowDecoded(value: PhpArray, slug: string, i: nat)
    requires SlugOk(slug) && RowListFrom(slug, value, 0) && i < |value|
    ensures DecodeRow(ToArraySlugs(value, slug), slug, i) == value[i].val.entries
  {
    var es := AllEntries(slug, value);
    var count := [Entry(NormalizeKey(slug), Int(|value|))];
    var marker := ItemSlug(slug, i);
    var row := value[i].val.entries;
    assert ItemEntries(es + count, marker) == row by {
      ItemEntriesAppend(es, count, marker);
      CountUnmarked(slug, i, Int(|value|));
      RowListItems(slug, value, 0, i);
    }
    assert SetAll([], row) == row by {
      assert PlainRow(slug, row);
      assert [] + row == row;
      SetAllFresh([], row);
    }
    StoredShape(value, slug);
  }

  /**
   Decoding what was encoded gives the rows back, for a list of rows indexed
   from 0 whose keys are plain and whose slug keeps row markers apart.
   */
  lemma RoundTrip(value: PhpArray, slug: string)
    requires SlugOk(slug) && RowListFrom(slug, value, 0)
    ensures FromArraySlugs(ToArraySlugs(value, slug), slug) == Some(value)
  {
    var stored := ToArraySlugs(value, slug);
    assert RowBound(Lookup(stored, NormalizeKey(slug))) == Some(|value|) by {
      assert CountArrays(value) == |value|;
    }
    DecodedRows(stored, slug, |value|);
    var rows := FromArraySlugs(stored, slug).value;
    forall i | 0 <= i < |value|
      ensures rows[i] == value[i]
    {
      RowDecoded(value, slug, i);
      assert value[i].key == IntKey(i) && value[i].val.Arr?;
    }
    assert rows == value;
  }
}

=== FILE: decimal.dfy ===
/**
 Decimal text of integers: how PHP writes an int into a string
 (`$slug . '_' . $i`) and which strings it reads back as integer array keys.
 */
module Decimal {

  predicate IsDigit(c: char) {
    '0' <= c <= '9'
  }

  predicate AllDigits(s: string) {
    forall i | 0 <= i < |s| :: IsDigit(s[i])
  }

  function DigitChar(d: nat): (c: char)
    requires d < 10
    ensures IsDigit(c)
  {
    (d + '0' as int) as char
  }

  function DigitValue(c: char): (d: nat)
    requires IsDigit(c)
    ensures d < 10 && DigitChar(d) == c
  {
    c as int - '0' as int
  }

  /** The value of a string of decimal digits, most significant first. */
  function ParseNat(s: string): nat
    requires AllDigits(s)
  {
    if s == [] then 0 else 10 * ParseNat(s[..|s| - 1]) + DigitValue(s[|s| - 1])
  }

  /** Digits with no superfluous leading zero: the only form PHP prints. */
  predicate Canonical(s: string) {
    |s| > 0 && AllDigits(s) && (s[0] != '0' || s == "0")
  }

  /** PHP's decimal form of a non-negative int; reading it back gives `n`. */
  function NatToString(n: nat): (r: string)
    ensures Canonical(r)
    ensures ParseNat(r) == n
    decreases n
  {
    if n < 10 then [DigitChar(n)]
    else
      var r := NatToString(n / 10) + [DigitChar(n % 10)];
      assert r[..|r| - 1] == NatToString(n / 10);
      r
  }

  lemma NatToStringInjective(a: nat, b: nat)
    requires NatToString(a) == NatToString(b)
    ensures a == b
  {
  }

  /**
   A string PHP turns into an integer key when it is used as an array key:
   "0", or an optional minus sign followed by digits that do not start with 0.
   */
  predicate IsIntegerKey(s: string) {
    Canonical(s) || (|s| >= 2 && s[0] == '-' && s[1] != '0' && Canonical(s[1..]))
  }

  function ParseInt(s: string): int
    requires IsIntegerKey(s)
  {
    if s[0] == '-' then -(ParseNat(s[1..]) as int) else ParseNat(s)
  }

  /** PHP's `(string)` of an int: a minus sign for negatives, then the digits. */
  function IntToString(i: int): (r: string)
    ensures IsIntegerKey(r) && ParseInt(r) == i
    ensures i >= 0 ==> r == NatToString(i)
  {
    if i < 0 then
      var r := "-" + NatToString(-i);
      assert r[1..] == NatToString(-i);
      r
    else NatToString(i)
  }

  /** Printing a canonical digit string's value gives the string back. */
  lemma {:induction false} NatToStringOfParse(s: string)
    requires Canonical(s)
    ensures NatToString(ParseNat(s)) == s
  {
    if |s| > 1 {
      var x := s[..|s| - 1];
      var d := DigitValue(s[|s| - 1]);
      assert Canonical(x) by {
        assert x[0] == s[0];
      }
      NatToStringOfParse(x);
      var m := ParseNat(x);
      assert x != NatToString(0);
      var n := ParseNat(s);
      assert n == 10 * m + d;
      assert n / 10 == m && n % 10 == d;
      assert NatToString(n) == x + [s[|s| - 1]];
      assert x + [s[|s| - 1]] == s;
    }
  }

  /** An integer-like key string is exactly the PHP text of its value. */
  lemma IntToStringOfParse(s: string)
    requires IsIntegerKey(s)
    ensures IntToString(ParseInt(s)) == s
  {
    if s[0] == '-' {
      var t := s[1..];
      NatToStringOfParse(t);
      assert t != NatToString(0);
      assert "-" + t == s;
    } else {
      NatToStringOfParse(s);
    }
  }

  /** Integer-like strings consist of digits and a minus sign only. */
  lemma IntegerKeyChars(s: string, i: int)
    requires IsIntegerKey(s) && 0 <= i < |s|
    ensures IsDigit(s[i]) || s[i] == '-'
  {
    if s[0] == '-' && i > 0 {
      assert s[i] == s[1..][i - 1];
    }
  }
}

=== FILE: options.dfy ===
/**
 `papi_get_options_and_properties`: how the arguments of a box or tab
 declaration are split into its options and its list of properties.
 Line numbers in the comments below refer to `src/lib/core/property.php`.
 */
module Options {
  import opened Text
  import opened PhpValues

  /**
   The pair `[$options, $properties]`, or a template file whose contents
   decide the result (the template is read from disk and is not modelled).
   */
  datatype Outcome = Split(options: PhpArray, properties: PhpArray) | Template(file: string)

  const TitleKey: Key := StrKey("title")
  const TemplateSuffix: string := ".php"

  // ---------------------------------------------------------------------
  // array_merge([], $a)
  // ---------------------------------------------------------------------

  /**
   `array_merge($acc, $a)` for the entries of `a`: an integer key is
   appended under the next free index, a string key is assigned.
   */
  function MergeInto(acc: PhpArray, a: PhpArray): PhpArray
    decreases |a|
  {
    if a == [] then acc
    else if a[0].key.IntKey? then MergeInto(Push(acc, a[0].val), a[1..])
    else MergeInto(Set(acc, a[0].key, a[0].val), a[1..])
  }

  /**
   Reference form of the renumbering: the entries in order, the integer keys
   replaced by `next`, `next + 1`, ..., the string keys kept.
   */
  function RenumberFrom(a: PhpArray, next: nat): (r: PhpArray)
    ensures |r| == |a|
    ensures forall i | 0 <= i < |a| :: r[i].val == a[i].val && r[i].key.IntKey? == a[i].key.IntKey?
    ensures forall i | 0 <= i < |a| && a[i].key.StrKey? :: r[i].key == a[i].key
    ensures forall i | 0 <= i < |a| && a[i].key.IntKey? :: r[i].key.n >= next
    ensures forall i, j | 0 <= i < j < |a| && a[i].key.IntKey? && a[j].key.IntKey? :: r[i].key.n < r[j].key.n
    decreases |a|
  {
    if a == [] then []
    else
      var head := if a[0].key.IntKey? then Entry(IntKey(next), a[0].val) else a[0];
      var rest := RenumberFrom(a[1..], if a[0].key.IntKey? then next + 1 else next);
      var r := [head] + rest;
      assert forall i | 1 <= i < |a| :: r[i] == rest[i - 1] && a[i] == a[1..][i - 1];
      r
  }

  /** The integer keys of `acc` lie below `next`, and `next - 1` is one of them. */
  predicate NextFree(acc: PhpArray, next: nat) {
    && (forall e | e in acc && e.key.IntKey? :: e.key.n < next)
    && (next > 0 ==> IntKey(next - 1) in Keys(acc))
  }

  lemma NextIndexOf(acc: PhpArray, next: nat)
    requires NextFree(acc, next)
    ensures NextIndex(acc) == next
  {
    var n := NextIndex(acc);
    if next > 0 {
      var e :| e in acc && e.key == IntKey(next - 1);
    }
    if n > 0 {
      var e :| e in acc && e.key == IntKey(n - 1);
    }
  }

  /**
   Merging keys into an array whose integer keys lie below `next` appends
   the renumbered entries, as long as none of the string keys is there yet.
   */
  lemma {:induction false} MergeIntoRenumbers(acc: PhpArray, a: PhpArray, next: nat)
    requires DistinctKeys(a) && NextFree(acc, next)
    requires forall e | e in a && e.key.StrKey? :: e.key !in Keys(acc)
    ensures MergeInto(acc, a) == acc + RenumberFrom(a, next)
    decreases |a|
  {
    if a != [] {
      DistinctTail(a);
      assert forall x | x in a[1..] :: x in a;
      if a[0].key.IntKey? {
        var acc' := MergeIntStep(acc, a, next);
        MergeIntoRenumbers(acc', a[1..], next + 1);
      } else {
        var acc' := MergeStrStep(acc, a, next);
        MergeIntoRenumbers(acc', a[1..], next);
      }
    }
  }

  /** One integer-keyed entry: pushed under `next`. */
  lemma MergeIntStep(acc: PhpArray, a: PhpArray, next: nat) returns (acc': PhpArray)
    requires a != [] && a[0].key.IntKey? && NextFree(acc, next)
    requires forall e | e in a[1..] && e.key.StrKey? :: e.key !in Keys(acc)
    ensures acc' == Push(acc, a[0].val) && NextFree(acc', next + 1)
    ensures forall e | e in a[1..] && e.key.StrKey? :: e.key !in Keys(acc')
    ensures acc' + RenumberFrom(a[1..], next + 1) == acc + RenumberFrom(a, next)
  {
    var x := Entry(IntKey(next), a[0].val);
    acc' := acc + [x];
    PushNext(acc, a[0].val, next);
    RenumberCons(a, next);
    AppendAssoc(acc, x, RenumberFrom(a[1..], next + 1));
  }

  /** The first entry of a renumbering, then the rest. */
  lemma RenumberCons(a: PhpArray, next: nat)
    requires a != []
    ensures a[0].key.IntKey? ==>
      RenumberFrom(a, next) == [Entry(IntKey(next), a[0].val)] + RenumberFrom(a[1..], next + 1)
    ensures a[0].key.StrKey? ==> RenumberFrom(a, next) == [a[0]] + RenumberFrom(a[1..], next)
  {
  }

  lemma AppendAssoc(a: PhpArray, x: Entry, b: PhpArray)
    ensures (a + [x]) + b == a + ([x] + b)
  {
  }

  /** `$acc[] = $v` on an array whose next free index is `next`. */
  lemma PushNext(acc: PhpArray, v: Value, next: nat)
    requires NextFree(acc, next)
    ensures Push(acc, v) == acc + [Entry(IntKey(next), v)]
    ensures NextFree(acc + [Entry(IntKey(next), v)], next + 1)
    ensures Keys(acc + [Entry(IntKey(next), v)]) == Keys(acc) + {IntKey(next)}
  {
    var x := Entry(IntKey(next), v);
    NextIndexOf(acc, next);
    KeysAppend(acc, [x]);
    KeysCons(x, []);
    assert forall e | e in acc + [x] :: e in acc || e == x;
  }

  /** One string-keyed entry, new to `acc`: appended. */
  lemma MergeStrStep(acc: PhpArray, a: PhpArray, next: nat) returns (acc': PhpArray)
    requires a != [] && a[0].key.StrKey? && NextFree(acc, next)
    requires DistinctKeys(a)
    requires forall e | e in a && e.key.StrKey? :: e.key !in Keys(acc)
    ensures acc' == Set(acc, a[0].key, a[0].val) && NextFree(acc', next)
    ensures forall e | e in a[1..] && e.key.StrKey? :: e.key !in Keys(acc')
    ensures acc' + RenumberFrom(a[1..], next) == acc + RenumberFrom(a, next)
  {
    var x := a[0];
    assert x in a;
    acc' := acc + [x];
    KeysAppend(acc, [x]);
    KeysCons(x, []);
    assert forall e | e in acc' :: e in acc || e == x;
    DistinctTail(a);
    assert forall e | e in a[1..] :: e in a && e.key != x.key;
    RenumberCons(a, next);
    AppendAssoc(acc, x, RenumberFrom(a[1..], next));
  }

  /**
   `array_merge([], $a)` keeps every entry in order, keeps the string keys
   and numbers the integer keys 0, 1, 2, ... in order.
   */
  lemma ArrayMergeRenumbers(a: PhpArray)
    requires DistinctKeys(a)
    ensures MergeInto([], a) == RenumberFrom(a, 0)
  {
    MergeIntoRenumbers([], a, 0);
    assert [] + RenumberFrom(a, 0) == RenumberFrom(a, 0);
  }

  /** Renumbering keeps keys apart. */
  lemma RenumberDistinct(a: PhpArray, next: nat)
    requires DistinctKeys(a)
    ensures DistinctKeys(RenumberFrom(a, next))
  {
    var r := RenumberFrom(a, next);
    forall i, j | 0 <= i < j < |r|
      ensures r[i].key != r[j].key
    {
      if a[i].key.StrKey? && a[j].key.StrKey? {
        assert a[i].key != a[j].key;
      }
    }
  }

  /** The values under integer keys of an entry followed by more entries. */
  lemma {:induction false} PositionalCons(e: Entry, t: PhpArray)
    ensures Positional([e] + t) == (if e.key.IntKey? then [e.val] else []) + Positional(t)
    decreases |t|
  {
    if t != [] {
      var init := t[..|t| - 1];
      PositionalCons(e, init);
      assert ([e] + t)[..|t|] == [e] + init;
      assert ([e] + t)[|t|] == t[|t| - 1];
    }
  }

  /**
   The renumbering in full: an integer key becomes `next` plus the number of
   integer keys before it, so they run `next`, `next + 1`, ... without gaps;
   a string-keyed entry is kept as it is.
   */
  lemma RenumberNumbering(a: PhpArray, next: nat)
    ensures forall i | 0 <= i < |a| && a[i].key.IntKey? ::
      RenumberFrom(a, next)[i] == Entry(IntKey(next + |Positional(a[..i])|), a[i].val)
    ensures forall i | 0 <= i < |a| && a[i].key.StrKey? :: RenumberFrom(a, next)[i] == a[i]
  {
    forall i | 0 <= i < |a|
      ensures RenumberFrom(a, next)[i] == RenumberedAt(a, next, i)
    {
      RenumberAt(a, next, i);
    }
  }

  /** What the `i`-th entry becomes. */
  function RenumberedAt(a: PhpArray, next: nat, i: nat): Entry
    requires i < |a|
  {
    if a[i].key.IntKey? then Entry(IntKey(next + |Positional(a[..i])|), a[i].val) else a[i]
  }

  lemma {:induction false} RenumberAt(a: PhpArray, next: nat, i: nat)
    requires i < |a|
    ensures RenumberFrom(a, next)[i] == RenumberedAt(a, next, i)
    decreases i
  {
    if i == 0 {
      assert a[..0] == [];
    } else if a[0].key.IntKey? {
      RenumberTail(a, next, i, next + 1);
    } else {
      RenumberTail(a, next, i, next);
    }
  }

  /** An entry past the first, renumbered along with the rest. */
  lemma {:induction false} RenumberTail(a: PhpArray, next: nat, i: nat, step: nat)
    requires 0 < i < |a|
    requires step == if a[0].key.IntKey? then next + 1 else next
    ensures RenumberFrom(a, next)[i] == RenumberedAt(a, next, i)
    decreases i, 0
  {
    var t := a[1..];
    RenumberAt(t, step, i - 1);
    RenumberShift(a, next, i, step);
    PositionalShift(a, i);
    assert t[i - 1] == a[i];
  }

  /** Past the first entry, the renumbering is that of the rest. */
  lemma RenumberShift(a: PhpArray, next: nat, i: nat, step: nat)
    requires 0 < i < |a|
    requires step == if a[0].key.IntKey? then next + 1 else next
    ensures RenumberFrom(a, next)[i] == RenumberFrom(a[1..], step)[i - 1]
  {
    RenumberCons(a, next);
  }

  /** Counting the integer keys before position `i`, the first entry apart. */
  lemma PositionalShift(a: PhpArray, i: nat)
    requires 0 < i <= |a|
    ensures |Positional(a[..i])| == (if a[0].key.IntKey? then 1 else 0) + |Positional(a[1..][..i - 1])|
  {
    assert a[..i] == [a[0]] + a[1..][..i - 1];
    PositionalCons(a[0], a[1..][..i - 1]);
  }

  // ---------------------------------------------------------------------
  // Moving the integer-keyed entries into the properties (lines 115-124)
  // ---------------------------------------------------------------------

  /** What stays in `$options` once every non-string key is unset: the string-keyed entries in order. */
  function StringKeyed(a: PhpArray): PhpArray
    decreases |a|
  {
    if a == [] then []
    else
      var last := a[|a| - 1];
      StringKeyed(a[..|a| - 1]) + (if last.key.StrKey? then [last] else [])
  }

  /** The values under non-string keys, in order. */
  function Positional(a: PhpArray): seq<Value>
    decreases |a|
  {
    if a == [] then []
    else
      var last := a[|a| - 1];
      Positional(a[..|a| - 1]) + (if last.key.IntKey? then [last.val] else [])
  }

  /** `$properties[] = $v` for each `v` of `vs`, in order. */
  function PushAll(properties: PhpArray, vs: seq<Value>): (r: PhpArray)
    ensures |r| == |properties| + |vs|
    decreases |vs|
  {
    if vs == [] then properties
    else Push(PushAll(properties, vs[..|vs| - 1]), vs[|vs| - 1])
  }

  /** Every entry goes to exactly one side, and the string-keyed side keeps exactly the string keys. */
  lemma {:induction false} PartitionCounts(a: PhpArray)
    ensures |StringKeyed(a)| + |Positional(a)| == |a|
    ensures forall e :: e in StringKeyed(a) <==> e in a && e.key.StrKey?
    decreases |a|
  {
    if a != [] {
      var init := a[..|a| - 1];
      PartitionCounts(init);
      assert a == init + [a[|a| - 1]];
      assert forall e :: e in a <==> e in init || e == a[|a| - 1];
    }
  }

  /** Pushing keeps what was there. */
  lemma {:induction false} PushAllPrefix(properties: PhpArray, vs: seq<Value>)
    ensures PushAll(properties, vs)[..|properties|] == properties
    decreases |vs|
  {
    if vs != [] {
      var q := PushAll(properties, vs[..|vs| - 1]);
      PushAllPrefix(properties, vs[..|vs| - 1]);
      var r := Push(q, vs[|vs| - 1]);
      assert r[..|q|] == q;
      assert r[..|properties|] == q[..|properties|];
    }
  }

  /** Pushing appends the values in order, each under an integer key. */
  lemma {:induction false} PushAllValues(properties: PhpArray, vs: seq<Value>, i: nat)
    requires i < |vs|
    ensures PushAll(properties, vs)[|properties| + i].val == vs[i]
    ensures PushAll(properties, vs)[|properties| + i].key.IntKey?
    decreases |vs|
  {
    var init := vs[..|vs| - 1];
    var q := PushAll(properties, init);
    var r := Push(q, vs[|vs| - 1]);
    assert PushAll(properties, vs) == r;
    if i < |init| {
      PushAllValues(properties, init, i);
      assert vs[i] == init[i];
      PushKeepsIndex(q, vs[|vs| - 1], |properties| + i);
    } else {
      assert |properties| + i == |q|;
    }
  }

  lemma PushKeepsIndex(q: PhpArray, v: Value, k: nat)
    requires k < |q|
    ensures Push(q, v)[k] == q[k]
  {
    assert Push(q, v)[..|q|][k] == Push(q, v)[k];
  }

  /** Pushing keeps keys apart. */
  lemma {:induction false} PushAllDistinct(properties: PhpArray, vs: seq<Value>)
    requires DistinctKeys(properties)
    ensures DistinctKeys(PushAll(properties, vs))
    decreases |vs|
  {
    if vs != [] {
      PushAllDistinct(properties, vs[..|vs| - 1]);
      PushDistinct(PushAll(properties, vs[..|vs| - 1]), vs[|vs| - 1]);
    }
  }

  /** A list: the keys are `0, 1, ..., n - 1` in order. */
  predicate IsList(a: PhpArray) {
    forall i | 0 <= i < |a| :: a[i].key == IntKey(i)
  }

  lemma ListNextFree(a: PhpArray)
    requires IsList(a)
    ensures NextFree(a, |a|)
  {
    forall e | e in a && e.key.IntKey?
      ensures e.key.n < |a|
    {
      var i :| 0 <= i < |a| && a[i] == e;
    }
    if |a| > 0 {
      assert a[|a| - 1] in a;
    }
  }

  /** `$properties[] = $v` for each `v` of `vs`, written out for a list. */
  function Listed(properties: PhpArray, vs: seq<Value>): PhpArray {
    properties + seq(|vs|, i requires 0 <= i < |vs| => Entry(IntKey(|properties| + i), vs[i]))
  }

  lemma ListedIsList(properties: PhpArray, vs: seq<Value>)
    requires IsList(properties)
    ensures IsList(Listed(properties, vs))
  {
    var l := Listed(properties, vs);
    forall i | 0 <= i < |l|
      ensures l[i].key == IntKey(i)
    {
      if i < |properties| {
        assert l[i] == properties[i];
      }
    }
  }

  lemma ListedSnoc(properties: PhpArray, vs: seq<Value>)
    requires vs != []
    ensures Listed(properties, vs)
      == Listed(properties, vs[..|vs| - 1]) + [Entry(IntKey(|properties| + |vs| - 1), vs[|vs| - 1])]
  {
  }

  /**
   Pushing onto a list appends the values under `|properties|`,
   `|properties| + 1`, ...: the result is again a list.
   */
  lemma {:induction false} PushAllList(properties: PhpArray, vs: seq<Value>)
    requires IsList(properties)
    ensures PushAll(properties, vs) == Listed(properties, vs)
    ensures IsList(PushAll(properties, vs))
    decreases |vs|
  {
    if vs == [] {
      assert Listed(properties, vs) == properties;
    } else {
      var init := vs[..|vs| - 1];
      var q := PushAll(properties, init);
      PushAllList(properties, init);
      ListNextFree(q);
      NextIndexOf(q, |q|);
      assert PushAll(properties, vs) == q + [Entry(IntKey(|q|), vs[|vs| - 1])];
      ListedSnoc(properties, vs);
    }
    ListedIsList(properties, vs);
  }

  // ---------------------------------------------------------------------
  // The box title (lines 99-108)
  // ---------------------------------------------------------------------

  /** `$a[0]->name`: a public property of the object at index 0, if there is one. */
  function ElementField(a: PhpArray, name: string): Option<Value> {
    match Lookup(a, IntKey(0))
    case Some(Obj(fields)) => FieldOf(fields, name)
    case _ => None
  }

  /** `$a[0]->options['title']`, when `$a[0]->options` is an array. */
  function ElementOptionsTitle(a: PhpArray): Option<Value> {
    match ElementField(a, "options")
    case Some(Arr(opts)) => Lookup(opts, TitleKey)
    case _ => None
  }

  /**
   The title a box takes from an array of properties: `$a['title']` if set;
   else the `title` property of the object `$a[0]`; else `title` in that
   object's `options` array; else "".
   */
  function BoxTitle(a: PhpArray): (title: Value)
    ensures !title.Null?
    ensures IsSet(Lookup(a, TitleKey)) ==> title == Lookup(a, TitleKey).value
    ensures !IsSet(Lookup(a, TitleKey)) && IsSet(ElementField(a, "title")) ==>
      title == ElementField(a, "title").value
    ensures !IsSet(Lookup(a, TitleKey)) && !IsSet(ElementField(a, "title")) && IsSet(ElementOptionsTitle(a)) ==>
      title == ElementOptionsTitle(a).value
    ensures !IsSet(Lookup(a, TitleKey)) && !IsSet(ElementField(a, "title")) && !IsSet(ElementOptionsTitle(a)) ==>
      title == Str("")
    ensures !IsSet(Lookup(a, TitleKey)) && !Lookup(a, IntKey(0)).Some? ==> title == Str("")
  {
    var own := Lookup(a, TitleKey);
    if IsSet(own) then own.value
    else if IsSet(ElementField(a, "title")) then ElementField(a, "title").value
    else if IsSet(ElementOptionsTitle(a)) then ElementOptionsTitle(a).value
    else Str("")
  }

  // ---------------------------------------------------------------------
  // papi_get_options_and_properties
  // ---------------------------------------------------------------------

  /**
   `papi_get_options_and_properties($fileOrOptions, $properties, $isBox)`:
   - an array without properties in a box: the array is the properties, and
     the options are the array itself when it has a non-empty `title`, else
     just the title found by `BoxTitle`;
   - any other array: its entries, renumbered, are the options; outside a box
     the integer-keyed ones are moved onto the end of the properties;
   - a string ending in `.php`: a template;
   - any other string: the title;
   - anything else: no options.
   */
  function OptionsAndProperties(fileOrOptions: Value, properties: PhpArray, isBox: bool): (r: Outcome)
    ensures r.Template? <==> fileOrOptions.Str? && MatchesAtEnd(fileOrOptions.s, TemplateSuffix)
    ensures r.Template? ==> r.file == fileOrOptions.s
    ensures fileOrOptions.Str? && r.Split? ==> r.options == [Entry(TitleKey, fileOrOptions)] && r.properties == properties
    ensures !fileOrOptions.Str? && !fileOrOptions.Arr? ==> r == Split([], properties)
    ensures fileOrOptions.Arr? && properties == [] && isBox ==>
      && r.properties == fileOrOptions.entries
      && Lookup(r.options, TitleKey) == Some(BoxTitle(fileOrOptions.entries))
      && (r.options == fileOrOptions.entries || r.options == [Entry(TitleKey, BoxTitle(fileOrOptions.entries))])
    ensures fileOrOptions.Arr? && properties == [] && isBox ==>
      var own := Lookup(fileOrOptions.entries, TitleKey);
      && (own.Some? && !IsEmpty(own.value) ==> r.options == fileOrOptions.entries)
      && (own.None? || IsEmpty(own.value) ==> r.options == [Entry(TitleKey, BoxTitle(fileOrOptions.entries))])
    ensures fileOrOptions.Arr? && properties != [] && isBox ==> r.properties == properties
    ensures fileOrOptions.Arr? && !isBox ==> forall e | e in r.options :: e.key.StrKey?
  {
    match fileOrOptions
    case Arr(a) =>
      if properties == [] && isBox then
        var own := Lookup(a, TitleKey);
        if own.Some? && !IsEmpty(own.value) then Split(a, a)
        else Split([Entry(TitleKey, BoxTitle(a))], a)
      else
        var merged := MergeInto([], a);
        if !isBox then
          PartitionCounts(merged);
          Split(StringKeyed(merged), PushAll(properties, Positional(merged)))
        else Split(merged, properties)
    case Str(s) =>
      if MatchesAtEnd(s, TemplateSuffix) then Template(s)
      else Split([Entry(TitleKey, fileOrOptions)], properties)
    case _ => Split([], properties)
  }

  /** Renumbering changes neither side of the split. */
  lemma {:induction false} SplitIgnoresNumbering(a: PhpArray, next: nat)
    ensures StringKeyed(RenumberFrom(a, next)) == StringKeyed(a)
    ensures Positional(RenumberFrom(a, next)) == Positional(a)
    decreases |a|
  {
    if a != [] {
      var r := RenumberFrom(a, next);
      var init := a[..|a| - 1];
      RenumberPrefix(a, next);
      SplitIgnoresNumbering(init, next);
      var last, renumbered := a[|a| - 1], r[|r| - 1];
      assert renumbered.val == last.val && renumbered.key.IntKey? == last.key.IntKey?;
      assert last.key.StrKey? ==> renumbered == last;
      assert StringKeyed(r) == StringKeyed(init) + (if last.key.StrKey? then [last] else []);
      assert Positional(r) == Positional(init) + (if last.key.IntKey? then [last.val] else []);
    }
  }

  /** Renumbering a shorter array gives the start of the longer one's renumbering. */
  lemma RenumberPrefix(a: PhpArray, next: nat)
    requires a != []
    ensures RenumberFrom(a, next)[..|a| - 1] == RenumberFrom(a[..|a| - 1], next)
  {
    var r, q := RenumberFrom(a, next), RenumberFrom(a[..|a| - 1], next);
    forall i | 0 <= i < |a| - 1
      ensures r[i] == q[i]
    {
      RenumberPrefixAt(a, next, i);
    }
    assert r[..|a| - 1] == q;
  }

  lemma RenumberPrefixAt(a: PhpArray, next: nat, i: nat)
    requires i < |a| - 1
    ensures RenumberFrom(a, next)[i] == RenumberFrom(a[..|a| - 1], next)[i]
  {
    var init := a[..|a| - 1];
    RenumberAt(a, next, i);
    RenumberAt(init, next, i);
    assert init[i] == a[i] && init[..i] == a[..i];
  }

  /**
   Outside a box, an array argument is split in two: the string-keyed
   entries, in order and unchanged, are the options; the values under
   integer keys are pushed, in order, onto the end of the given properties.
   */
  lemma SplitOutsideBox(a: PhpArray, properties: PhpArray)
    requires DistinctKeys(a)
    ensures var r := OptionsAndProperties(Arr(a), properties, false);
      && r.options == StringKeyed(a)
      && r.properties == PushAll(properties, Positional(a))
  {
    ArrayMergeRenumbers(a);
    SplitIgnoresNumbering(a, 0);
  }

  /**
   In a box with properties already given, the array's entries become the
   options, renumbered, and the properties stay as they are.
   */
  lemma MergeInsideBox(a: PhpArray, properties: PhpArray)
    requires DistinctKeys(a) && properties != []
    ensures var r := OptionsAndProperties(Arr(a), properties, true);
      && r.options == RenumberFrom(a, 0)
      && r.properties == properties
      && DistinctKeys(r.options)
  {
    ArrayMergeRenumbers(a);
    RenumberDistinct(a, 0);
  }
}

=== FILE: php_values.dfy ===
/**
 PHP values and ordered arrays, as far as the property helpers touch them.
 An array is a sequence of entries in insertion order; a key is an int or a
 string, and a string subscript that looks like an integer becomes an int key.
 */
module PhpValues {
  import opened Decimal

  datatype Option<T> = None | Some(value: T)

  datatype Key = IntKey(n: int) | StrKey(s: string)

  datatype Value =
    | Null
    | Bool(b: bool)
    | Int(i: int)
    | Str(s: string)
    | Arr(entries: seq<Entry>)
    | Obj(fields: seq<Field>)

  datatype Entry = Entry(key: Key, val: Value)

  /** A public property of an object (`$obj->name`). */
  datatype Field = Field(name: string, val: Value)

  type PhpArray = seq<Entry>

  /** The string form of a key, as `array_keys` followed by a string function sees it. */
  function KeyString(k: Key): string {
    match k
    case IntKey(n) => IntToString(n)
    case StrKey(s) => s
  }

  /** The key `$a[$s]` uses for a string `$s`; its string form is `$s` again. */
  function NormalizeKey(s: string): (k: Key)
    ensures KeyString(k) == s
    ensures k.IntKey? <==> IsIntegerKey(s)
  {
    if IsIntegerKey(s) then
      IntToStringOfParse(s);
      IntKey(ParseInt(s))
    else StrKey(s)
  }

  /** A key PHP can hold: integer-like strings are never string keys. */
  predicate ValidKey(k: Key) {
    k.StrKey? ==> !IsIntegerKey(k.s)
  }

  /** Normalizing the string form of a key PHP can hold gives the key back. */
  lemma NormalizeKeyString(k: Key)
    requires ValidKey(k)
    ensures NormalizeKey(KeyString(k)) == k
  {
  }

  /** A string with an underscore in it is always a string key. */
  lemma UnderscoreKeepsString(s: string, i: int)
    requires 0 <= i < |s| && s[i] == '_'
    ensures NormalizeKey(s) == StrKey(s)
  {
    if IsIntegerKey(s) {
      IntegerKeyChars(s, i);
    }
  }

  function Keys(a: PhpArray): set<Key> {
    set e | e in a :: e.key
  }

  predicate DistinctKeys(a: PhpArray) {
    forall i, j | 0 <= i < j < |a| :: a[i].key != a[j].key
  }

  lemma KeysCons(e: Entry, a: PhpArray)
    ensures Keys([e] + a) == {e.key} + Keys(a)
  {
    assert forall x | x in [e] + a :: x == e || x in a;
  }

  lemma KeysAppend(a: PhpArray, b: PhpArray)
    ensures Keys(a + b) == Keys(a) + Keys(b)
  {
    assert forall x | x in a + b :: x in a || x in b;
  }

  /** Without repeated keys, the first key does not occur again and the rest is distinct too. */
  lemma DistinctTail(a: PhpArray)
    requires DistinctKeys(a) && a != []
    ensures DistinctKeys(a[1..]) && a[0].key !in Keys(a[1..])
  {
    forall p, q | 0 <= p < q < |a[1..]|
      ensures a[1..][p].key != a[1..][q].key
    {
      assert a[1..][p] == a[p + 1] && a[1..][q] == a[q + 1];
    }
    forall e | e in a[1..]
      ensures e.key != a[0].key
    {
      var j :| 0 <= j < |a[1..]| && a[1..][j] == e;
      assert a[j + 1] == e;
    }
  }

  lemma DistinctCons(e: Entry, a: PhpArray)
    requires DistinctKeys(a) && e.key !in Keys(a)
    ensures DistinctKeys([e] + a)
  {
    var r := [e] + a;
    forall p, q | 0 <= p < q < |r|
      ensures r[p].key != r[q].key
    {
      if p == 0 {
        assert r[q] in a;
      } else {
        assert r[p] == a[p - 1] && r[q] == a[q - 1];
      }
    }
  }

  lemma DistinctKeysAppend(a: PhpArray, b: PhpArray)
    requires DistinctKeys(a) && DistinctKeys(b)
    requires forall x, y | x in a && y in b :: x.key != y.key
    ensures DistinctKeys(a + b)
  {
    forall i, j | 0 <= i < j < |a + b|
      ensures (a + b)[i].key != (a + b)[j].key
    {
      if i < |a| && j >= |a| {
        assert (a + b)[i] == a[i] && (a + b)[j] == b[j - |a|];
        assert a[i] in a && b[j - |a|] in b;
      } else if j < |a| {
        assert (a + b)[i] == a[i] && (a + b)[j] == a[j];
      } else {
        assert (a + b)[i] == b[i - |a|] && (a + b)[j] == b[j - |a|];
      }
    }
  }

  /** `$a[$k]`: the value stored under `k`, if any. */
  function Lookup(a: PhpArray, k: Key): (r: Option<Value>)
    ensures r.Some? <==> k in Keys(a)
    ensures r.Some? ==> Entry(k, r.value) in a
  {
    if a == [] then None
    else if a[0].key == k then Some(a[0].val)
    else
      KeysCons(a[0], a[1..]);
      assert [a[0]] + a[1..] == a;
      Lookup(a[1..], k)
  }

  lemma LookupCons(e: Entry, a: PhpArray, k: Key)
    ensures Lookup([e] + a, k) == if e.key == k then Some(e.val) else Lookup(a, k)
  {
    assert ([e] + a)[1..] == a;
  }

  /**
   `$a[$k] = $v`: an existing key keeps its place and takes the new value;
   a new key is appended at the end.
   */
  function Set(a: PhpArray, k: Key, v: Value): (r: PhpArray)
    ensures k !in Keys(a) ==> r == a + [Entry(k, v)]
    ensures k in Keys(a) ==> |r| == |a|
  {
    if a == [] then [Entry(k, v)]
    else
      KeysCons(a[0], a[1..]);
      assert [a[0]] + a[1..] == a;
      if a[0].key == k then [Entry(k, v)] + a[1..]
      else [a[0]] + Set(a[1..], k, v)
  }

  /** After `$a[$k] = $v`, `$a[$k]` is `v`. */
  lemma {:induction false} SetLookupSame(a: PhpArray, k: Key, v: Value)
    ensures Lookup(Set(a, k, v), k) == Some(v)
  {
    if a == [] {
      LookupCons(Entry(k, v), [], k);
    } else if a[0].key == k {
      LookupCons(Entry(k, v), a[1..], k);
    } else {
      SetLookupSame(a[1..], k, v);
      LookupCons(a[0], Set(a[1..], k, v), k);
    }
  }

  /** After `$a[$k] = $v`, every other key reads as before. */
  lemma {:induction false} SetLookupOther(a: PhpArray, k: Key, v: Value, other: Key)
    requires other != k
    ensures Lookup(Set(a, k, v), other) == Lookup(a, other)
  {
    if a == [] {
      LookupCons(Entry(k, v), [], other);
    } else {
      assert [a[0]] + a[1..] == a;
      LookupCons(a[0], a[1..], other);
      if a[0].key == k {
        LookupCons(Entry(k, v), a[1..], other);
      } else {
        SetLookupOther(a[1..], k, v, other);
        LookupCons(a[0], Set(a[1..], k, v), other);
      }
    }
  }

  /** What `Set` does to the key set, the entries, and the absence of repeated keys. */
  lemma SetShape(a: PhpArray, k: Key, v: Value)
    ensures Keys(Set(a, k, v)) == Keys(a) + {k}
    ensures forall e | e in Set(a, k, v) :: e in a || e == Entry(k, v)
    ensures DistinctKeys(a) ==> DistinctKeys(Set(a, k, v))
  {
    SetEntries(a, k, v);
    if DistinctKeys(a) {
      SetDistinct(a, k, v);
    }
  }

  lemma {:induction false} SetEntries(a: PhpArray, k: Key, v: Value)
    ensures Keys(Set(a, k, v)) == Keys(a) + {k}
    ensures forall e | e in Set(a, k, v) :: e in a || e == Entry(k, v)
  {
    if a != [] {
      KeysCons(a[0], a[1..]);
      assert [a[0]] + a[1..] == a;
      if a[0].key == k {
        KeysCons(Entry(k, v), a[1..]);
      } else {
        var rest := Set(a[1..], k, v);
        assert Set(a, k, v) == [a[0]] + rest;
        SetEntries(a[1..], k, v);
        KeysCons(a[0], rest);
      }
    }
  }

  lemma {:induction false} SetDistinct(a: PhpArray, k: Key, v: Value)
    requires DistinctKeys(a)
    ensures DistinctKeys(Set(a, k, v))
  {
    if a != [] {
      KeysCons(a[0], a[1..]);
      assert [a[0]] + a[1..] == a;
      DistinctTail(a);
      if a[0].key == k {
        KeysCons(Entry(k, v), a[1..]);
        DistinctCons(Entry(k, v), a[1..]);
      } else {
        var rest := Set(a[1..], k, v);
        assert Set(a, k, v) == [a[0]] + rest;
        SetEntries(a[1..], k, v);
        SetDistinct(a[1..], k, v);
        DistinctCons(a[0], rest);
      }
    }
  }

  /** A run of assignments `$a[$k] = $v`, one per entry of `es`, in order. */
  function SetAll(a: PhpArray, es: PhpArray): (r: PhpArray)
    decreases |es|
  {
    if es == [] then a else SetAll(Set(a, es[0].key, es[0].val), es[1..])
  }

  /** What a run of assignments does to the key set, the entries and distinctness. */
  lemma {:induction false} SetAllShape(a: PhpArray, es: PhpArray)
    ensures Keys(SetAll(a, es)) == Keys(a) + Keys(es)
    ensures forall e | e in SetAll(a, es) :: e in a || e in es
    ensures DistinctKeys(a) ==> DistinctKeys(SetAll(a, es))
    decreases |es|
  {
    if es != [] {
      KeysCons(es[0], es[1..]);
      assert [es[0]] + es[1..] == es;
      SetShape(a, es[0].key, es[0].val);
      SetAllShape(Set(a, es[0].key, es[0].val), es[1..]);
    }
  }

  /** Assigning fresh, distinct keys appends them in order. */
  lemma {:induction false} SetAllFresh(a: PhpArray, es: PhpArray)
    requires DistinctKeys(a + es)
    ensures SetAll(a, es) == a + es
    decreases |es|
  {
    if es != [] {
      forall j | 0 <= j < |a|
        ensures a[j].key != es[0].key
      {
        assert (a + es)[j] == a[j] && (a + es)[|a|] == es[0];
      }
      assert es[0].key !in Keys(a);
      var a' := a + [es[0]];
      assert a' + es[1..] == a + es;
      SetAllFresh(a', es[1..]);
    }
  }

  /** `$a[] = $v` picks one more than the largest integer key, and at least 0. */
  function NextIndex(a: PhpArray): (n: nat)
    ensures forall e | e in a && e.key.IntKey? :: e.key.n < n
    ensures n > 0 ==> IntKey(n - 1) in Keys(a)
  {
    if a == [] then 0
    else
      var rest := NextIndex(a[1..]);
      assert forall e | e in a :: e == a[0] || e in a[1..];
      assert forall e | e in a[1..] :: e in a;
      if a[0].key.IntKey? && a[0].key.n >= rest then a[0].key.n + 1 else rest
  }

  /** `$a[] = $v`: append under the next free integer key. */
  function Push(a: PhpArray, v: Value): (r: PhpArray)
    ensures |r| == |a| + 1 && r[..|a|] == a && r[|a|].val == v
    ensures r[|a|].key.IntKey? && r[|a|].key !in Keys(a)
  {
    var r := a + [Entry(IntKey(NextIndex(a)), v)];
    assert r[..|a|] == a;
    r
  }

  /** `$a[] = $v` adds no repeated key. */
  lemma PushDistinct(a: PhpArray, v: Value)
    requires DistinctKeys(a)
    ensures DistinctKeys(Push(a, v))
  {
    var r := Push(a, v);
    forall i, j | 0 <= i < j < |r|
      ensures r[i].key != r[j].key
    {
      assert r[i] == r[..|a|][i] || i == |a|;
      if j == |a| {
        assert r[i] in a;
      } else {
        assert r[j] == r[..|a|][j];
      }
    }
  }

  /** `isset($x)` for a value that may be missing: present and not null. */
  predicate IsSet(o: Option<Value>) {
    o.Some? && !o.value.Null?
  }

  /** `empty($x)`: null, false, 0, "", "0" and the empty array. */
  predicate IsEmpty(v: Value) {
    match v
    case Null => true
    case Bool(b) => !b
    case Int(i) => i == 0
    case Str(s) => s == "" || s == "0"
    case Arr(entries) => entries == []
    case Obj(_) => false
  }

  /** `$obj->name`, if the object has that property. */
  function FieldOf(fields: seq<Field>, name: string): (r: Option<Value>)
    ensures r.Some? ==> Field(name, r.value) in fields
    ensures r.None? ==> forall f | f in fields :: f.name != name
  {
    if fields == [] then None
    else if fields[0].name == name then Some(fields[0].val)
    else
      assert forall f | f in fields :: f == fields[0] || f in fields[1..];
      assert forall f | f in fields[1..] :: f in fields;
      FieldOf(fields[1..], name)
  }
}

=== FILE: text.dfy ===
/**
 The string primitives the property helpers rely on: prefix and suffix tests,
 substring search (what `preg_grep` does with a quoted literal),
 `str_replace($pat, '', $s)`, a PCRE literal anchored by `$`, and `ucfirst`.
 */
module Text {

  predicate StartsWith(s: string, prefix: string) {
    |prefix| <= |s| && s[..|prefix|] == prefix
  }

  predicate EndsWith(s: string, suffix: string) {
    |suffix| <= |s| && s[|s| - |suffix|..] == suffix
  }

  /** `pat` occurs in `s` starting at position `p`. */
  predicate OccursAt(s: string, pat: string, p: int) {
    0 <= p && p + |pat| <= |s| && s[p..p + |pat|] == pat
  }

  /** `pat` occurs somewhere in `s`: an unanchored search for a literal. */
  predicate Contains(s: string, pat: string) {
    exists p | 0 <= p <= |s| :: OccursAt(s, pat, p)
  }

  lemma OccursAtChar(s: string, pat: string, p: int, i: int)
    requires OccursAt(s, pat, p) && 0 <= i < |pat|
    ensures s[p + i] == pat[i]
  {
    assert s[p..p + |pat|][i] == s[p + i];
  }

  /** An occurrence past a prefix is an occurrence in what follows the prefix. */
  lemma OccursAfterPrefix(a: string, b: string, pat: string, p: int)
    requires OccursAt(a + b, pat, p) && p >= |a|
    ensures OccursAt(b, pat, p - |a|)
  {
    assert (a + b)[p..p + |pat|] == b[p - |a|..p - |a| + |pat|];
  }

  /** An occurrence in what follows a prefix is an occurrence in the whole. */
  lemma OccursBehindPrefix(a: string, b: string, pat: string, p: int)
    requires OccursAt(b, pat, p)
    ensures OccursAt(a + b, pat, p + |a|)
  {
    assert (a + b)[p + |a|..p + |a| + |pat|] == b[p..p + |pat|];
  }

  /** The characters a suffix pins down. */
  lemma SuffixChar(w: string, t: string, i: int)
    ensures EndsWith(w, t) && |w| - |t| <= i < |w| ==> w[i] == t[i - (|w| - |t|)]
  {
    if EndsWith(w, t) && |w| - |t| <= i < |w| {
      assert w[|w| - |t|..][i - (|w| - |t|)] == w[i];
    }
  }

  /** A suffix no longer than the tail is a suffix of the tail. */
  lemma SuffixOfTail(x: string, u: string, t: string)
    requires |t| <= |u| && EndsWith(x + u, t)
    ensures EndsWith(u, t)
  {
    assert (x + u)[|x + u| - |t|..] == u[|u| - |t|..];
  }

  /** An occurrence is a witness for `Contains`. */
  lemma ContainsAt(s: string, pat: string, p: int)
    ensures OccursAt(s, pat, p) ==> Contains(s, pat)
  {
  }

  /** A pattern longer than the text cannot occur in it. */
  lemma ShorterContainsNothing(s: string, pat: string)
    requires |s| < |pat|
    ensures !Contains(s, pat)
  {
  }

  /**
   `str_replace($pat, '', $s)`: every occurrence of `pat` found by a left to
   right scan is deleted; after a deletion the scan resumes behind it.
   */
  function RemoveAll(s: string, pat: string): (r: string)
    requires |pat| > 0
    ensures |r| <= |s|
    ensures !Contains(s, pat) ==> r == s
    decreases |s|
  {
    if |s| < |pat| then s
    else if s[..|pat|] == pat then
      assert OccursAt(s, pat, 0);
      RemoveAll(s[|pat|..], pat)
    else
      var r := [s[0]] + RemoveAll(s[1..], pat);
      assert !Contains(s, pat) ==> !Contains(s[1..], pat) by {
        forall p | 0 <= p <= |s[1..]| && OccursAt(s[1..], pat, p)
          ensures OccursAt(s, pat, p + 1)
        {
          OccursBehindPrefix([s[0]], s[1..], pat, p);
          assert [s[0]] + s[1..] == s;
        }
      }
      assert !Contains(s, pat) ==> r == [s[0]] + s[1..];
      r
  }

  /**
   `RemoveAll` takes something away exactly when the pattern occurs, and
   then at least one copy of it.
   */
  lemma RemoveAllRemoves(s: string, pat: string)
    requires |pat| > 0
    ensures Contains(s, pat) ==> |RemoveAll(s, pat)| <= |s| - |pat|
    ensures RemoveAll(s, pat) == s <==> !Contains(s, pat)
  {
    RemoveAllShrinks(s, pat);
  }

  /** An occurrence of the pattern is removed. */
  lemma {:induction false} RemoveAllShrinks(s: string, pat: string)
    requires |pat| > 0
    ensures Contains(s, pat) ==> |RemoveAll(s, pat)| <= |s| - |pat|
    decreases |s|
  {
    if Contains(s, pat) {
      if |s| < |pat| {
        ShorterContainsNothing(s, pat);
      } else if s[..|pat|] != pat {
        RemoveAllShrinks(s[1..], pat);
        ContainsPastHead(s, pat);
      }
    }
  }

  /** An occurrence that is not at the front is one in the tail. */
  lemma ContainsPastHead(s: string, pat: string)
    requires |pat| <= |s| && s[..|pat|] != pat && Contains(s, pat)
    ensures Contains(s[1..], pat)
  {
    var p :| 0 <= p <= |s| && OccursAt(s, pat, p);
    assert p != 0;
    assert [s[0]] + s[1..] == s;
    OccursAfterPrefix([s[0]], s[1..], pat, p);
    ContainsAt(s[1..], pat, p - 1);
  }

  /** Only whole copies of the pattern are removed: `copies` of them. */
  lemma {:induction false} RemoveAllWhole(s: string, pat: string) returns (copies: nat)
    requires |pat| > 0
    ensures |s| - |RemoveAll(s, pat)| == copies * |pat|
    decreases |s|
  {
    if |s| < |pat| {
      copies := 0;
    } else if s[..|pat|] == pat {
      var t := s[|pat|..];
      var c := RemoveAllWhole(t, pat);
      copies := c + 1;
      assert copies * |pat| == c * |pat| + |pat|;
    } else {
      copies := RemoveAllWhole(s[1..], pat);
    }
  }

  /**
   The first occurrence is deleted and the scan goes on behind it. Together
   with `RemoveAll`'s "unchanged when absent", this pins the function down to
   the left to right deletion of every non-overlapping occurrence.
   */
  lemma RemoveAllAtFirst(s: string, pat: string, p: int)
    requires |pat| > 0 && OccursAt(s, pat, p)
    requires forall q | 0 <= q < p :: !OccursAt(s, pat, q)
    ensures RemoveAll(s, pat) == s[..p] + RemoveAll(s[p + |pat|..], pat)
  {
    RemoveAllSkips(s, pat, p);
    var t := s[p..];
    assert t[..|pat|] == pat;
    assert t[|pat|..] == s[p + |pat|..];
  }

  /** A prefix in which no occurrence starts is kept as it is. */
  lemma {:induction false} RemoveAllSkips(s: string, pat: string, k: int)
    requires |pat| > 0 && 0 <= k && k + |pat| <= |s|
    requires forall q | 0 <= q < k :: !OccursAt(s, pat, q)
    ensures RemoveAll(s, pat) == s[..k] + RemoveAll(s[k..], pat)
    decreases k
  {
    if k == 0 {
      assert s[..0] + s[0..] == s;
    } else {
      RemoveAllSkips(s, pat, k - 1);
      assert !OccursAt(s, pat, k - 1);
      RemoveAllSkipStep(s, pat, k);
    }
  }

  /** One more character with no occurrence starting at it is kept. */
  lemma RemoveAllSkipStep(s: string, pat: string, k: int)
    requires |pat| > 0 && 0 < k && k + |pat| <= |s| && !OccursAt(s, pat, k - 1)
    requires RemoveAll(s, pat) == s[..k - 1] + RemoveAll(s[k - 1..], pat)
    ensures RemoveAll(s, pat) == s[..k] + RemoveAll(s[k..], pat)
  {
    RemoveAllKeepsAt(s, pat, k - 1);
    AppendChar(s, k, RemoveAll(s[k..], pat));
  }

  /** `RemoveAllKeepsHead` for the suffix starting at `i`. */
  lemma RemoveAllKeepsAt(s: string, pat: string, i: int)
    requires |pat| > 0 && 0 <= i && i + |pat| <= |s| && !OccursAt(s, pat, i)
    ensures RemoveAll(s[i..], pat) == [s[i]] + RemoveAll(s[i + 1..], pat)
  {
    var t := s[i..];
    assert t[..|pat|] == s[i..i + |pat|];
    assert t[0] == s[i] && t[1..] == s[i + 1..];
    RemoveAllKeepsHead(t, pat);
  }

  /** Without an occurrence at the front the head is kept and the scan moves on. */
  lemma RemoveAllKeepsHead(s: string, pat: string)
    requires |pat| > 0 && |pat| <= |s| && s[..|pat|] != pat
    ensures RemoveAll(s, pat) == [s[0]] + RemoveAll(s[1..], pat)
  {
  }

  /** Regrouping a one-character extension of a prefix. */
  lemma AppendChar(s: string, k: int, x: string)
    requires 0 < k <= |s|
    ensures s[..k - 1] + ([s[k - 1]] + x) == s[..k] + x
  {
    assert s[..k - 1] + [s[k - 1]] == s[..k];
  }

  /** Removing a pattern from a string that starts with it drops that occurrence first. */
  lemma RemoveAllLeading(pat: string, k: string)
    requires |pat| > 0
    ensures RemoveAll(pat + k, pat) == RemoveAll(k, pat)
  {
    assert (pat + k)[..|pat|] == pat;
    assert (pat + k)[|pat|..] == k;
  }

  /** Where PCRE's `$` (no modifiers) matches: at the end, or before a final newline. */
  predicate DollarAt(s: string, q: int) {
    q == |s| || (0 < |s| && q == |s| - 1 && s[q] == '\n')
  }

  /**
   `preg_match('/lit$/', $s) === 1` for a literal `lit`: some occurrence of
   `lit` is followed by a position where `$` matches.
   */
  function MatchesAtEnd(s: string, lit: string): (r: bool)
    ensures r <==> EndsWith(s, lit) || EndsWith(s, lit + "\n")
  {
    MatchesAtEndSuffix(s, lit);
    exists p | 0 <= p <= |s| :: OccursAt(s, lit, p) && DollarAt(s, p + |lit|)
  }

  lemma MatchesAtEndSuffix(s: string, lit: string)
    ensures (exists p | 0 <= p <= |s| :: OccursAt(s, lit, p) && DollarAt(s, p + |lit|))
        <==> EndsWith(s, lit) || EndsWith(s, lit + "\n")
  {
    if EndsWith(s, lit) {
      assert OccursAt(s, lit, |s| - |lit|) && DollarAt(s, |s|);
    } else if EndsWith(s, lit + "\n") {
      SuffixBeforeNewline(s, lit);
    } else {
      forall p | 0 <= p <= |s| && OccursAt(s, lit, p)
        ensures !DollarAt(s, p + |lit|)
      {
        if DollarAt(s, p + |lit|) {
          MatchBeforeDollar(s, lit, p);
        }
      }
    }
  }

  lemma SuffixBeforeNewline(s: string, lit: string)
    requires EndsWith(s, lit + "\n")
    ensures OccursAt(s, lit, |s| - |lit| - 1) && DollarAt(s, |s| - 1)
  {
    var p := |s| - |lit| - 1;
    var t := s[p..];
    assert t == lit + "\n";
    assert s[p..p + |lit|] == t[..|lit|];
    assert s[|s| - 1] == t[|lit|];
  }

  lemma MatchBeforeDollar(s: string, lit: string, p: int)
    requires OccursAt(s, lit, p) && DollarAt(s, p + |lit|)
    ensures EndsWith(s, lit) || EndsWith(s, lit + "\n")
  {
    if p + |lit| == |s| {
      assert s[|s| - |lit|..] == s[p..p + |lit|];
    } else {
      assert s[p..] == s[p..p + |lit|] + [s[|s| - 1]];
    }
  }

  predicate IsLower(c: char) {
    'a' <= c <= 'z'
  }

  /** `toupper` in the C locale: only ASCII letters change. */
  function Upper(c: char): (u: char)
    ensures !IsLower(u)
    ensures IsLower(c) ==> 'A' <= u <= 'Z'
    ensures !IsLower(c) ==> u == c
  {
    if IsLower(c) then (c as int - 32) as char else c
  }

  /** `ucfirst`: the first character upper-cased, the rest unchanged. */
  function UcFirst(s: string): (r: string)
    ensures |r| == |s|
    ensures |s| > 0 ==> r[0] == Upper(s[0]) && r[1..] == s[1..]
  {
    if s == [] then [] else [Upper(s[0])] + s[1..]
  }
}

=== FILE: type_names.dfy ===
/**
 The string functions that turn a property type name into a class name and
 into the meta key its type is stored under (`papi_get_property_class_name`,
 `papi_get_property_type_key`, `papi_get_property_type_key_f`,
 `papi_is_property_type_key`).
 Line numbers in the comments below refer to `src/lib/core/property.php`.
 */
module TypeNames {
  import opened Text
  import opened PhpValues

  const ClassPrefix: string := "Papi_Property_"
  const LegacyPrefix: string := "Property"
  const TypeSuffix: string := "_property"

  // ---------------------------------------------------------------------
  // Class names
  // ---------------------------------------------------------------------

  /** `str_replace('-', '_', $s)`. */
  function DashesToUnderscores(s: string): string {
    seq(|s|, i requires 0 <= i < |s| => if s[i] == '-' then '_' else s[i])
  }

  /** `explode('_', $s)`: the pieces between underscores, empty ones included. */
  function Explode(s: string): (parts: seq<string>)
    ensures |parts| > 0
    decreases |s|
  {
    if s == [] then [[]]
    else
      var rest := Explode(s[1..]);
      if s[0] == '_' then [[]] + rest else [[s[0]] + rest[0]] + rest[1..]
  }

  /** `implode('_', $parts)`. */
  function Implode(parts: seq<string>): string
    requires |parts| > 0
  {
    if |parts| == 1 then parts[0] else parts[0] + "_" + Implode(parts[1..])
  }

  lemma ImplodeHead(c: char, p: string, ps: seq<string>)
    ensures Implode([[c] + p] + ps) == [c] + Implode([p] + ps)
  {
    if ps != [] {
      assert ([[c] + p] + ps)[1..] == ps;
      assert ([p] + ps)[1..] == ps;
    }
  }

  lemma ImplodeUnderscore(parts: seq<string>)
    requires |parts| > 0
    ensures Implode([[]] + parts) == "_" + Implode(parts)
  {
    assert ([[]] + parts)[1..] == parts;
  }

  /** Splitting on underscores and joining with underscores gives the string back. */
  lemma {:induction false} ImplodeExplode(s: string)
    ensures Implode(Explode(s)) == s
    decreases |s|
  {
    if s != [] {
      var rest := Explode(s[1..]);
      ImplodeExplode(s[1..]);
      if s[0] == '_' {
        ImplodeUnderscore(rest);
      } else {
        ImplodeHead(s[0], rest[0], rest[1..]);
        assert [rest[0]] + rest[1..] == rest;
      }
      assert [s[0]] + s[1..] == s;
    }
  }

  /** `array_map('ucfirst', $parts)`, leaving the first part alone when `first` is false. */
  function UcFirstParts(parts: seq<string>, first: bool): seq<string> {
    seq(|parts|, i requires 0 <= i < |parts| => if i == 0 && !first then parts[i] else UcFirst(parts[i]))
  }

  /** Lines 171-173: explode on `_`, `ucfirst` every piece, implode with `_`. */
  function CapitalizeSegments(s: string): string {
    Implode(UcFirstParts(Explode(s), true))
  }

  /**
   The same transformation stated character by character: a character is
   upper-cased when it starts the string (if `atStart`) or follows an underscore.
   */
  function CapsFrom(s: string, atStart: bool): (r: string)
    ensures |r| == |s|
  {
    seq(|s|, i requires 0 <= i < |s| =>
      if (i == 0 && atStart) || (i > 0 && s[i - 1] == '_') then Upper(s[i]) else s[i])
  }

  lemma CapsFromCons(s: string, atStart: bool)
    requires s != []
    ensures CapsFrom(s, atStart) == [if atStart then Upper(s[0]) else s[0]] + CapsFrom(s[1..], s[0] == '_')
  {
    var lhs := CapsFrom(s, atStart);
    var rhs := [if atStart then Upper(s[0]) else s[0]] + CapsFrom(s[1..], s[0] == '_');
    forall i | 0 <= i < |s|
      ensures lhs[i] == rhs[i]
    {
      if i > 0 {
        assert s[1..][i - 1] == s[i];
        if i > 1 {
          assert s[1..][i - 2] == s[i - 1];
        }
      }
    }
  }

  lemma UcFirstPartsEmptyHead(rest: seq<string>, atStart: bool)
    ensures UcFirstParts([[]] + rest, atStart) == [[]] + UcFirstParts(rest, true)
  {
    var lhs := UcFirstParts([[]] + rest, atStart);
    var rhs := [[]] + UcFirstParts(rest, true);
    forall i | 0 <= i < |lhs|
      ensures lhs[i] == rhs[i]
    {
      if i > 0 {
        assert ([[]] + rest)[i] == rest[i - 1];
      }
    }
  }

  lemma UcFirstPartsCharHead(c: char, p: string, ps: seq<string>, atStart: bool)
    ensures UcFirstParts([[c] + p] + ps, atStart)
         == [[if atStart then Upper(c) else c] + p] + UcFirstParts(ps, true)
    ensures UcFirstParts([p] + ps, false) == [p] + UcFirstParts(ps, true)
  {
    var lhs := UcFirstParts([[c] + p] + ps, atStart);
    var rhs := [[if atStart then Upper(c) else c] + p] + UcFirstParts(ps, true);
    forall i | 0 <= i < |lhs|
      ensures lhs[i] == rhs[i]
    {
      if i == 0 {
        assert ([c] + p)[1..] == p;
      } else {
        assert ([[c] + p] + ps)[i] == ps[i - 1];
      }
    }
    var lhs2 := UcFirstParts([p] + ps, false);
    var rhs2 := [p] + UcFirstParts(ps, true);
    forall i | 0 <= i < |lhs2|
      ensures lhs2[i] == rhs2[i]
    {
      if i > 0 {
        assert ([p] + ps)[i] == ps[i - 1];
      }
    }
  }

  lemma ExplodeCons(s: string)
    requires s != []
    ensures s[0] == '_' ==> Explode(s) == [[]] + Explode(s[1..])
    ensures s[0] != '_' ==> Explode(s) == [[s[0]] + Explode(s[1..])[0]] + Explode(s[1..])[1..]
  {
  }

  lemma {:induction false} CapitalizeSegmentsFrom(s: string, atStart: bool)
    ensures Implode(UcFirstParts(Explode(s), atStart)) == CapsFrom(s, atStart)
    decreases |s|
  {
    if s == [] {
      assert UcFirstParts([[]], atStart) == [[]];
    } else {
      var rest := Explode(s[1..]);
      ExplodeCons(s);
      CapsFromCons(s, atStart);
      if s[0] == '_' {
        CapitalizeSegmentsFrom(s[1..], true);
        UcFirstPartsEmptyHead(rest, atStart);
        ImplodeUnderscore(UcFirstParts(rest, true));
      } else {
        CapitalizeSegmentsFrom(s[1..], false);
        var c := if atStart then Upper(s[0]) else s[0];
        UcFirstPartsCharHead(s[0], rest[0], rest[1..], atStart);
        ImplodeHead(c, rest[0], UcFirstParts(rest[1..], true));
        assert [rest[0]] + rest[1..] == rest;
      }
    }
  }

  /** Every underscore-separated segment starts with an upper-case (or non-letter) character. */
  predicate SegmentsCapitalized(u: string) {
    forall i | 0 <= i < |u| && (i == 0 || u[i - 1] == '_') :: !IsLower(u[i])
  }

  /** Line 175: `preg_replace('/^Property/', '', $t)`. */
  function StripLegacyPrefix(t: string): string {
    if StartsWith(t, LegacyPrefix) then t[|LegacyPrefix|..] else t
  }

  lemma StrippedStaysCapitalized(t: string)
    requires SegmentsCapitalized(t)
    ensures SegmentsCapitalized(UcFirst(StripLegacyPrefix(t)))
  {
    var u := StripLegacyPrefix(t);
    var d := |t| - |u|;
    assert u == t[d..];
    var w := UcFirst(u);
    forall i | 0 < i < |w| && w[i - 1] == '_'
      ensures !IsLower(w[i])
    {
      assert w[i] == u[i] == t[d + i];
      assert w[i - 1] == u[i - 1] == t[d + i - 1];
    }
  }

  /**
   `papi_get_property_class_name`: null for a non-string or empty type;
   otherwise `Papi_Property_` followed by the type with dashes turned into
   underscores, every segment capitalised, and a leading `Property` removed.
   */
  function ClassName(t: Value): (r: Option<string>)
    ensures r.None? <==> !t.Str? || IsEmpty(t)
    ensures r.Some? ==> StartsWith(r.value, ClassPrefix)
    ensures r.Some? ==>
      r.value == ClassPrefix + UcFirst(StripLegacyPrefix(CapsFrom(DashesToUnderscores(t.s), true)))
    ensures r.Some? ==> NoDash(r.value)
    ensures r.Some? ==> SegmentsCapitalized(r.value[|ClassPrefix|..])
  {
    if !t.Str? || IsEmpty(t) then None
    else
      CapitalizeSegmentsFrom(DashesToUnderscores(t.s), true);
      ClassNameShape(t.s);
      Some(ClassPrefix + UcFirst(StripLegacyPrefix(CapitalizeSegments(DashesToUnderscores(t.s)))))
  }

  predicate NoDash(s: string) {
    forall i | 0 <= i < |s| :: s[i] != '-'
  }

  lemma ClassNameShape(s: string)
    ensures var tail := UcFirst(StripLegacyPrefix(CapsFrom(DashesToUnderscores(s), true)));
      && NoDash(ClassPrefix + tail)
      && StartsWith(ClassPrefix + tail, ClassPrefix)
      && SegmentsCapitalized((ClassPrefix + tail)[|ClassPrefix|..])
  {
    var caps := CapsFrom(DashesToUnderscores(s), true);
    assert SegmentsCapitalized(caps);
    StrippedStaysCapitalized(caps);
    CapsHaveNoDash(s);
    var tail := UcFirst(StripLegacyPrefix(caps));
    TailHasNoDash(caps);
    var r := ClassPrefix + tail;
    assert r[..|ClassPrefix|] == ClassPrefix && r[|ClassPrefix|..] == tail;
    NoDashConcat(ClassPrefix, tail);
  }

  lemma CapsHaveNoDash(s: string)
    ensures NoDash(CapsFrom(DashesToUnderscores(s), true))
  {
    var d := DashesToUnderscores(s);
    assert NoDash(d);
  }

  lemma TailHasNoDash(t: string)
    requires NoDash(t)
    ensures NoDash(UcFirst(StripLegacyPrefix(t)))
  {
    var u := StripLegacyPrefix(t);
    assert u == t[|t| - |u|..];
    assert NoDash(u);
  }

  lemma NoDashConcat(a: string, b: string)
    requires NoDash(a) && NoDash(b)
    ensures NoDash(a + b)
  {
    forall i | 0 <= i < |a + b|
      ensures (a + b)[i] != '-'
    {
      if i >= |a| {
        assert (a + b)[i] == b[i - |a|];
      }
    }
  }

  // ---------------------------------------------------------------------
  // Type keys
  // ---------------------------------------------------------------------

  /** `papi_f`: the key with an underscore as its first character. */
  function PapiF(s: string): (r: string)
    ensures StartsWith(r, "_")
    ensures r == s || r == "_" + s
    ensures StartsWith(s, "_") ==> r == s
    ensures !StartsWith(s, "_") ==> r == "_" + s
  {
    if StartsWith(s, "_") then s else "_" + s
  }

  /**
   `papi_get_property_type_key` on a string: trailing `]` characters are set
   aside, `_property` is appended to the rest, and the result goes through
   `unpapify` (which is not part of this model and so is a parameter).
   */
  function TypeKeyOf(s: string, unpapify: string -> string): string
    decreases |s|
  {
    if |s| == 0 then TypeSuffix
    else if s[|s| - 1] == ']' then TypeKeyOf(s[..|s| - 1], unpapify) + "]"
    else unpapify(s + TypeSuffix)
  }

  /** `papi_get_property_type_key` on any value: non-strings and "" give `_property`. */
  function TypeKey(t: Value, unpapify: string -> string): (r: string)
    ensures !t.Str? || t.s == "" ==> r == TypeSuffix
    ensures t.Str? && t.s != "" && t.s[|t.s| - 1] != ']' ==> r == unpapify(t.s + TypeSuffix)
  {
    if t.Str? then TypeKeyOf(t.s, unpapify) else TypeSuffix
  }

  /** `papi_get_property_type_key_f`: the type key with an underscore first. */
  function TypeKeyF(t: Value, unpapify: string -> string): (r: string)
    ensures StartsWith(r, "_")
    ensures r == TypeKey(t, unpapify) || r == "_" + TypeKey(t, unpapify)
    ensures StartsWith(TypeKey(t, unpapify), "_") ==> r == TypeKey(t, unpapify)
    ensures !StartsWith(TypeKey(t, unpapify), "_") ==> r == "_" + TypeKey(t, unpapify)
  {
    PapiF(TypeKey(t, unpapify))
  }

  /** A `]` appended to the type comes back appended to the key. */
  lemma TypeKeyAppendBracket(s: string, unpapify: string -> string)
    ensures TypeKeyOf(s + "]", unpapify) == TypeKeyOf(s, unpapify) + "]"
  {
    assert (s + "]")[..|s|] == s;
  }

  function Brackets(m: nat): string {
    seq(m, _ => ']')
  }

  /**
   The trailing `]` characters survive in number: a type `t` followed by `m`
   brackets gives `t`'s key followed by the same `m` brackets.
   */
  lemma {:induction false} TypeKeyBrackets(t: string, m: nat, unpapify: string -> string)
    ensures TypeKeyOf(t + Brackets(m), unpapify) == TypeKeyOf(t, unpapify) + Brackets(m)
    decreases m
  {
    if m == 0 {
      assert t + Brackets(0) == t;
    } else {
      assert t + Brackets(m) == (t + Brackets(m - 1)) + "]";
      assert Brackets(m) == Brackets(m - 1) + "]";
      TypeKeyAppendBracket(t + Brackets(m - 1), unpapify);
      TypeKeyBrackets(t, m - 1, unpapify);
    }
  }

  /**
   `papi_is_property_type_key`: `preg_match('/\_property$/', $s)`, true when
   `_property` ends the string or comes right before a final newline.
   */
  function IsPropertyTypeKey(s: string): (r: bool)
    ensures r <==> EndsWith(s, TypeSuffix) || EndsWith(s, TypeSuffix + "\n")
  {
    MatchesAtEnd(s, TypeSuffix)
  }

  /**
   A type key is recognised as one exactly when the type had no trailing `]`,
   provided `unpapify` keeps a `_property` ending.
   */
  lemma TypeKeyRecognized(s: string, unpapify: string -> string)
    requires forall x :: EndsWith(x, TypeSuffix) ==> EndsWith(unpapify(x), TypeSuffix)
    ensures IsPropertyTypeKey(TypeKeyOf(s, unpapify)) <==> s == "" || s[|s| - 1] != ']'
  {
    if s != [] && s[|s| - 1] != ']' {
      var x := s + TypeSuffix;
      assert x[|x| - |TypeSuffix|..] == TypeSuffix;
    } else if s != [] {
      var k := TypeKeyOf(s, unpapify);
      assert k[|k| - 1] == ']';
    }
  }
}
